=== FILE: README.md ===
# invest-tracker, modelled in Dafny

invest-tracker is a personal investment tracker. A Django backend keeps
assets with a live price, users' investment goals and the monthly
investments under each goal. It derives cost, value, gain and return figures
from them. It serves them per user over REST and pushes admin price changes to
every browser over a WebSocket. A React client logs in with JWT tokens kept in
`localStorage`. It refreshes an expired access token in a request
interceptor, gates its two dashboards on a stored admin flag, patches its
query cache when a price is pushed, and edits asset prices optimistically
with rollback.

This project models those pieces and proves what they promise. There is one
module per source file:

| module | source |
|---|---|
| `Portfolio` | the derived properties of `MonthlyInvestment` and `InvestmentGoal` (`models.py`) |
| `Ownership` | the goal and investment viewsets and the login view (`views.py`); the tables are a `Database` class |
| `PriceConsumer` | the price WebSocket consumer (`consumers.py`): group membership, the admin-gated write, the broadcast; the channel layer, the asset table and the consumer are classes |
| `QueryCache` | the shared TanStack `QueryClient`, as a class over a map from query key to (data, stale) |
| `PriceSocket` | the client's push handler (`usePriceWebSocket.ts`) |
| `AdminDashboard` | the asset mutations' cache effects (`adminDashboard.tsx`) |
| `Browser` | `localStorage`, the location and the client's default header, as a `Window` class |
| `ApiClient` | the request interceptor (`client.ts`) |
| `Login` | the login page's submit handler (`Login.tsx`) |
| `Header`, `UseAuth` | the two logout paths and the auth hook's mount effect |
| `AppRoutes` | the route table and the admin gate (`App.tsx`) |
| `GoalForm` | the goal form's asset select and required fields (`GoalForm.tsx`) |
| `Integration` | properties that cross the backend/client boundary |

Each state-changing handler is a method. The consumer, the login page, the
goal form and the database handlers are methods of their own classes. The
header, `useAuth`, push-handler and dashboard handlers are module-level
methods over the shared `Window` or `QueryClient` object. Each method's
`ensures` ties the new state to a pure step function, and the lemmas about those step functions
carry the properties. `Decimal` values are exact `real`s. Python exceptions
and JavaScript throws are `Err`/`thrown` values. The error paths each
member's contract names are modelled; the ones that are not are listed under
"## Left out".

Behaviour the model keeps as the code has it, where a reader might expect
otherwise:

- A token whose `exp` is missing or 0 is never treated as expired (`client.ts:18`).
- Logout removes only the two tokens. The identity keys, including
  `is_data_admin`, stay. `useAuth`'s `logout` navigates within the page, so
  the default `Authorization` header it set stays too. The header's logout
  button and a failed refresh assign `window.location.href` instead, which
  reloads the page and drops that in-memory header.
- There is no single-flight refresh and no retry on 401. Each request refreshes
  on its own, at most once.
- The login response has no `is_data_admin`. The client stores the text
  "undefined" and always lands on `/dashboard`.
- `receive` reads the local `asset` after the `if` even when the branch was not
  taken, so every non-admin or non-price frame raises. The ASGI routing installs
  no authentication middleware, so `scope['user']` is absent.
- The investment serializer omits `asset`. A cached list in that shape makes
  every pushed event throw in the client before the statistics are
  invalidated.
- `/register-staff` renders the register page, and `/` renders the user
  dashboard without the admin gate.
- `roi` returns 0 for a zero cost before it reads the asset.
- A pushed frame without `asset_id` patches every cached investment whose
  `asset` is a bare key, because `undefined === undefined` holds.
- Wrong credentials make the token serializer raise `AuthenticationFailed` out
  of `is_valid()`. The login view then answers 401 with a `detail` message,
  and that is the text the login page shows.

## Model

| member | source | states |
|---|---|---|
| Portfolio.TotalCost | backend/investments/models.py:100-103 | zero exactly when the quantity or the purchase price is zero (the case `roi` guards); non-negative for non-negative inputs |
| Portfolio.TotalInvested | backend/investments/models.py:51-57 | 0 for no investments and the one cost for one; its sum properties are `TotalInvestedAppend`, `TotalInvestedPermutation` and `TotalInvestedNonNegative` |
| Portfolio.EffectivePrice | backend/investments/models.py:111 | the asset price when non-zero, else the purchase price; zero only when the purchase price is zero |
| Portfolio.CurrentValue | backend/investments/models.py:105-112 | raises exactly on a null asset; quantity × asset price when that price is non-zero, the total cost when it is 0 |
| Portfolio.GainLoss | backend/investments/models.py:114-116 | raises exactly on a null asset; quantity × (effective price − purchase price); 0 when the asset price is 0 |
| Portfolio.Roi | backend/investments/models.py:118-122 | 0 for a zero cost even on a null asset; otherwise raises exactly on a null asset, and roi × cost = 100 × gain |
| Portfolio.IsProfitable | backend/investments/models.py:124-126 | raises exactly on a null asset; true iff current value ≥ total cost |
| Portfolio.ZeroPriceBreaksEven | backend/investments/models.py:105-126 | an asset at its default price 0 gives value = cost, gain 0, profitable, return 0 |
| Portfolio.RoiSignIsProfitability | backend/investments/models.py:118-126 | for a positive cost, roi ≥ 0 iff the investment is profitable |
| Portfolio.CurrentPortfolioValue | backend/investments/models.py:59-65 | the goal's value sum is defined iff every investment has an asset |
| Portfolio.NetGainLoss | backend/investments/models.py:67-71 | defined iff every investment has an asset; net + total invested = portfolio value |
| Portfolio.PortfolioRoi | backend/investments/models.py:73-77 | no figure exactly when nothing was invested; otherwise roi × invested = 100 × net gain; raises on a null asset |
| Portfolio.Progress | backend/investments/models.py:79-83 | 0 for a non-positive target; otherwise progress × target = 100 × invested, and progress ≥ 100 iff the target is met |
| Portfolio.NetGainLossIsSumOfGains | backend/investments/models.py:51-71 | a goal's net gain is the sum of its investments' gains |
| Portfolio.TotalInvestedAppend | backend/investments/models.py:51-57 | the amount invested splits over concatenation |
| Portfolio.TotalInvestedPermutation | backend/investments/models.py:51-57 | any permutation of the investments gives the same amount invested, so the listing order does not matter |
| Portfolio.EmptyGoal | backend/investments/models.py:51-83 | an empty goal: invested 0, value 0, net 0, no return figure, progress 0 |
| Portfolio.TotalInvestedNonNegative | backend/investments/models.py:51-57 | non-negative quantities and prices give a non-negative amount invested |
| Ownership.GoalsOf | backend/investments/views.py:16-17 | a goal is listed iff it is in the table and owned by the requester |
| Ownership.OwnerOf | backend/investments/views.py:26-27 | the `goal__user` lookup: none iff no goal has that key, otherwise the owner of a goal with that key |
| Ownership.InvestmentsOf | backend/investments/views.py:26-27 | an investment is listed iff it is in the table and its goal is owned by the requester |
| Ownership.FindOwnedGoal | backend/investments/views.py:30-31 | finds a goal with the requested key and the requester as owner, or none exists |
| Ownership.GoalsOfAppend | backend/investments/views.py:16-20 | after an insert the new goal appears, last, only in its owner's listing |
| Ownership.ListingsAreDisjoint | backend/investments/views.py:16-17 | two users never see a common goal |
| Ownership.OwnerOfAppend | backend/investments/views.py:19-20 | inserting a goal with a fresh key keeps every other owner lookup and answers its own |
| Ownership.OwnerOfUnique | backend/investments/views.py:29-32 | with distinct keys the lookup returns the owner of the row holding the key |
| Ownership.Database.PerformCreateGoal | backend/investments/views.py:19-20 | the goal is saved with the requester as owner, whatever the payload claims; keys stay distinct and valid |
| Ownership.Database.PerformCreateInvestment | backend/investments/views.py:29-32 | a missing or foreign goal raises `DoesNotExist` and saves nothing; otherwise the row is appended under a goal the requester owns |
| Ownership.LoginPost | backend/investments/views.py:37-42 | 200 with the validated data iff the serializer accepts; 400 with the field errors iff a field is invalid; 401 with `detail` iff the credentials are rejected |
| PriceConsumer.GroupAdd | backend/investments/consumers.py:8-10 | the channel joins the group; no other membership changes |
| PriceConsumer.GroupDiscard | backend/investments/consumers.py:12-13 | the channel leaves the group; no other membership changes |
| PriceConsumer.ConnectThenDisconnect | backend/investments/consumers.py:8-13 | disconnect undoes connect |
| PriceConsumer.SetPrice | backend/investments/consumers.py:15-21 | unknown key raises `DoesNotExist`; otherwise only that row's price and save time change |
| PriceConsumer.Gate | backend/investments/consumers.py:26 | taken iff a `price_update` frame comes from a data admin; for such a frame a missing user raises `KeyError` and an anonymous one `AttributeError`; other frames never raise |
| PriceConsumer.ReceiveStep | backend/investments/consumers.py:23-37 | a broadcast happens iff nothing is raised, iff an admin sends a complete request for an existing asset; the event carries the new price; failures write nothing; the exception is pinned per path: `JSONDecodeError`, the gate's own, `UnboundLocalError` for a frame not taken, `KeyError` for a missing field, `DoesNotExist` for an unknown asset |
| PriceConsumer.NoUserNoWrite | backend/investments/consumers.py:26 | with no user in the scope a price request raises `KeyError` and writes nothing |
| PriceConsumer.ReceiveIsIdempotent | backend/investments/consumers.py:23-37 | replaying an accepted request at any later time has the effect of that one delivery at the replay's time: same price, only save time and timestamp move on |
| PriceConsumer.PriceUpdatesConsumer.Connect | backend/investments/consumers.py:8-10 | the socket is accepted and joins `price_updates`; nothing is sent |
| PriceConsumer.PriceUpdatesConsumer.Disconnect | backend/investments/consumers.py:12-13 | the socket leaves `price_updates` |
| PriceConsumer.PriceUpdatesConsumer.UpdateAssetPrice | backend/investments/consumers.py:15-21 | the table becomes `SetPrice` of the old one and the saved row is returned, or `DoesNotExist` with no change |
| PriceConsumer.PriceUpdatesConsumer.Receive | backend/investments/consumers.py:23-37 | the table, the group sends and the raised failure are those of `ReceiveStep`; membership is unchanged |
| PriceConsumer.PriceUpdatesConsumer.PriceUpdate | backend/investments/consumers.py:39-40 | the group event is forwarded on the socket unchanged |
| QueryCache.SetData | frontend/src/hooks/usePriceWebSocket.ts:18-24 | the key holds the new data with its invalidation flag cleared; other keys unchanged |
| QueryCache.Invalidate | frontend/src/hooks/usePriceWebSocket.ts:27 | an existing entry keeps its data and turns stale; no key is created or otherwise changed |
| QueryCache.InvalidateIdempotent | frontend/src/pages/adminDashboard.tsx:80-84 | invalidating twice is invalidating once |
| QueryCache.QueryClient.GetQueryData | frontend/src/pages/adminDashboard.tsx:57 | the cached data iff the key is present |
| QueryCache.QueryClient.SetQueryData | frontend/src/pages/adminDashboard.tsx:61-68 | the entries become `SetData` of the old ones and stay well-typed |
| QueryCache.QueryClient.InvalidateQueries | frontend/src/pages/adminDashboard.tsx:82 | the entries become `Invalidate` of the old ones and stay well-typed |
| PriceSocket.Matches | frontend/src/hooks/usePriceWebSocket.ts:20 | with an event id, exactly the nested asset with that id matches; without one, exactly the bare-key assets match (`undefined === undefined`) |
| PriceSocket.PatchOne | frontend/src/hooks/usePriceWebSocket.ts:19-22 | a matching element gets quantity × new price and keeps every other field; others are unchanged |
| PriceSocket.PatchInvestments | frontend/src/hooks/usePriceWebSocket.ts:18-24 | throws `TypeError` iff some element has no `asset`; otherwise the same length, with each element patched |
| PriceSocket.HandleMessage | frontend/src/hooks/usePriceWebSocket.ts:14-28 | a malformed frame throws `SyntaxError`; a parsed frame succeeds iff no cached element lacks `asset`, and throws `TypeError` otherwise; a throw changes nothing; on success the list is patched elementwise and written back not invalidated, the statistics entry is invalidated and no other key changes |
| PriceSocket.PatchIdempotent | frontend/src/hooks/usePriceWebSocket.ts:18-24 | patching twice with one event is patching once |
| PriceSocket.HandleIdempotent | frontend/src/hooks/usePriceWebSocket.ts:14-28 | a duplicated push leaves the cache as one push did |
| PriceSocket.PatchesCommute | frontend/src/hooks/usePriceWebSocket.ts:18-24 | pushes for different assets commute |
| PriceSocket.MissingAssetBlocksHandler | frontend/src/hooks/usePriceWebSocket.ts:20 | one cached element without `asset` makes every push throw and change nothing |
| PriceSocket.OnMessage | frontend/src/hooks/usePriceWebSocket.ts:14-28 | the cache and the thrown error are those of `HandleMessage` |
| AdminDashboard.WithPrice | frontend/src/pages/adminDashboard.tsx:63-67 | the matching asset gets the new price and keeps its other fields; others unchanged; same order and length |
| AdminDashboard.MutateStep | frontend/src/pages/adminDashboard.tsx:52-72 | snapshot iff a page is cached; the page is replaced by the patched page; with none, nothing changes |
| AdminDashboard.RollbackStep | frontend/src/pages/adminDashboard.tsx:73-79 | a snapshot is written back, not invalidated; other keys untouched and no other key created; no snapshot, no change |
| AdminDashboard.FailedEditRestores | frontend/src/pages/adminDashboard.tsx:52-84 | a failed edit leaves the page exactly as before, marked stale, and every other key untouched |
| AdminDashboard.SucceededEditShowsPrice | frontend/src/pages/adminDashboard.tsx:52-84 | a successful edit leaves the patched page, stale; other keys untouched |
| AdminDashboard.OnMutate | frontend/src/pages/adminDashboard.tsx:52-72 | cache and snapshot are those of `MutateStep` |
| AdminDashboard.OnError | frontend/src/pages/adminDashboard.tsx:73-79 | the cache becomes `RollbackStep` of the old one |
| AdminDashboard.OnSettled | frontend/src/pages/adminDashboard.tsx:80-84 | the assets entry is invalidated |
| AdminDashboard.OnAddSuccess | frontend/src/pages/adminDashboard.tsx:38-41 | the assets entry is invalidated |
| Browser.GetItem | frontend/src/api/client.ts:13 | the stored value iff the key is present |
| Browser.HasToken | frontend/src/api/client.ts:15 | the token test is `getItem` returning a non-empty text |
| Browser.RemoveTokens | frontend/src/components/layout/Header.tsx:3-5 | exactly the two token keys go; every other key keeps its value; no token remains |
| Browser.RemoveTokensIdempotent | frontend/src/components/layout/Header.tsx:3-5 | a second logout changes nothing |
| Browser.Bearer | frontend/src/api/client.ts:36 | the header is the scheme `Bearer ` followed by the token, so both can be read back |
| Browser.DecimalString | frontend/src/pages/Login.tsx:25 | the printed id is a non-empty digit string without a leading zero |
| Browser.DecimalStringInjective | frontend/src/components/goals/GoalForm.tsx:59 | distinct ids print differently |
| ApiClient.IsExpired | frontend/src/api/client.ts:18 | an absent or zero `exp` is never expired; otherwise expired iff the clock is past `exp` × 1000 |
| ApiClient.ExpiryIsPermanent | frontend/src/api/client.ts:18 | once expired a token stays expired at later times, and it is live through millisecond `exp` × 1000 |
| ApiClient.InterceptStep | frontend/src/api/client.ts:12-40 | no token: untouched; undecodable: rejected; live or no `exp`: bearer attached; expired: exactly one refresh POST with the stored refresh token, then either the new token stored and sent, or both tokens removed, the login page opened and the request rejected |
| ApiClient.SentHeaderMatchesStore | frontend/src/api/client.ts:27-36 | a request sent with a token stored carries exactly the access token stored afterwards |
| ApiClient.InterceptKeepsIdentity | frontend/src/api/client.ts:12-40 | non-token keys never change; the refresh token changes only on a failed refresh |
| ApiClient.FailedRefreshDoesNotLoop | frontend/src/api/client.ts:29-34 | after a failed refresh the next request goes out bare with no further refresh |
| ApiClient.NoExpiryMeansAttached | frontend/src/api/client.ts:18 | a token with no `exp`, or `exp` 0, is attached as it is, never refreshed |
| ApiClient.RequestInterceptor | frontend/src/api/client.ts:12-40 | storage, location, outcome and refresh POSTs are those of `InterceptStep`; a failed refresh reloads the page and clears the default header, every other branch leaves it untouched |
| Login.FlagString | frontend/src/pages/Login.tsx:28 | the stored text is "true" iff the flag is true; `false` is stored as "false" and a missing flag as "undefined" |
| Login.StoreSession | frontend/src/pages/Login.tsx:23-28 | exactly the six session keys are written, from the response; others keep their value |
| Login.SecondLoginReplacesFirst | frontend/src/pages/Login.tsx:23-28 | a second login leaves nothing of the first session |
| Login.LandingPath | frontend/src/pages/Login.tsx:29-33 | the admin dashboard iff `is_data_admin` is true, the user dashboard otherwise |
| Login.ErrorMessage | frontend/src/pages/Login.tsx:35-39 | never empty; a non-empty `detail` wins; failing that, a non-empty first non-field error; failing both, the default text |
| Login.LoginPage.OnSubmit | frontend/src/pages/Login.tsx:17-43 | success stores the session and opens the landing path; failure stores nothing and shows the message; `loading` ends false |
| Header.HandleLogout | frontend/src/components/layout/Header.tsx:3-7 | the tokens are removed, the location is `/login`, and the page load clears the default header |
| UseAuth.MountEffect | frontend/src/hooks/useAuth.ts:8-15 | no token: go to `/login`; otherwise the stored token becomes the default header, unchecked |
| UseAuth.Logout | frontend/src/hooks/useAuth.ts:17-21 | the tokens are removed and the location is `/login`; the default header stays |
| AppRoutes.IsAdmin | frontend/src/App.tsx:13-15 | admin iff `getItem('is_data_admin')` is exactly "true" |
| AppRoutes.Route | frontend/src/App.tsx:13-41 | `/login`, `/register` and `/register-staff` render the login, register and register page outside the layout; `/` renders the user dashboard with no gate; each dashboard renders or redirects to the other by the flag; every other path redirects to `/dashboard` |
| AppRoutes.ExactlyOneDashboardRenders | frontend/src/App.tsx:30-37 | for any flag exactly one dashboard renders and the other redirects to it |
| AppRoutes.NoRedirectCycle | frontend/src/App.tsx:25-41 | every path reaches a page within two redirects, the dashboard matching the flag |
| GoalForm.SelectAssets | frontend/src/components/goals/GoalForm.tsx:26-36 | fetched results win when present, even empty; otherwise the prop; nothing renders iff both are missing |
| GoalForm.FindIndex | frontend/src/components/goals/GoalForm.tsx:59 | the first asset whose printed id equals the option value, or none has it |
| GoalForm.PlaceholderMatchesNothing | frontend/src/components/goals/GoalForm.tsx:59-64 | the empty placeholder value selects no asset |
| GoalForm.ChoosingAnAssetFindsItsId | frontend/src/components/goals/GoalForm.tsx:57-70 | choosing a listed asset's option finds an asset with that id, no later in the list |
| GoalForm.RequiredErrors | frontend/src/components/goals/GoalForm.tsx:48-146 | exactly the empty required fields (asset, target, years, contribution) fail |
| GoalForm.ChooseAsset | frontend/src/components/goals/GoalForm.tsx:57-62 | records the choice; copies name and type from the found asset or clears them; other fields unchanged |
| GoalForm.PlaceholderBlocksSubmit | frontend/src/components/goals/GoalForm.tsx:52-64 | back to the placeholder clears name and type and the asset rule fails |
| GoalForm.GoalFormState.OnAssetChange | frontend/src/components/goals/GoalForm.tsx:57-62 | the values become `ChooseAsset` of the old ones |
| Integration.ClientView | backend/investments/serializers.py:90-99 | the backend's login body read by the client has no admin flag, so it lands on `/dashboard` |
| Integration.LoginErrorShown | frontend/src/pages/Login.tsx:35-39 | rejected credentials show the backend's `detail`; invalid fields show the first non-field error, or the default text when there is none |
| Integration.ServerLoginNeverAdmin | backend/investments/serializers.py:90-99 | any successful backend login stores "undefined" as the flag, lands on `/dashboard`, and the admin route redirects away |
| Integration.LoginLandsWithoutRedirect | frontend/src/pages/Login.tsx:28-33 | the stored flag reads as admin iff the response said true, and the landing path renders without a redirect |
| Integration.AdminFlagSurvivesLogout | frontend/src/components/layout/Header.tsx:3-7 | logout keeps the admin flag, so the admin page still renders after an admin logs out |
| Integration.LogoutKeepsDefaultHeader | frontend/src/hooks/useAuth.ts:13 | after logout a request built from the defaults still carries the old bearer header, with no refresh |
| Integration.Delivered | backend/investments/consumers.py:28-40 | the frame a broadcast becomes carries the new price and patches exactly the cached investments whose nested asset has the event's id |
| Integration.PushedValueMatchesServer | frontend/src/hooks/usePriceWebSocket.ts:19-22 | the client's patched value equals the server's `current_value` after the write iff the price is non-zero or the cost is 0 |

## Left out

- `float()` in `progress` and `parseFloat` in the push handler: numbers are exact reals, so rounding and `NaN` from unparsable price text are not modelled.
- Header.HandleLogout: the page load that the `href` assignment starts also empties the query cache and restarts the client; only the dropped default header is modelled, since the handler does not reach the `QueryClient`.
- ApiClient.RequestInterceptor: on a failed refresh the page load also empties the query cache; only the dropped default header is modelled.
- Portfolio.Progress: computed on exact reals rather than on Python floats.
- `str()` of the price and the timestamp in the broadcast: the event carries the values they spell.
- Serializers: field validation, `simplejwt`'s credential check (whether the login is valid, has invalid fields or is rejected is an input), and the read-only goal figures they expose.
- Ownership.LoginPost: answers rejected credentials with 401. The framework sends 403 instead when no authentication class supplies a `WWW-Authenticate` header, and that depends on settings that are not part of this model.
- Error paths not modelled: a frame whose JSON is not an object (`data.get` raises `AttributeError` in `receive`, and a `null` push throws `TypeError` at `data.asset_id`); a non-integer `asset_id` or `goal` (`ValueError` from the ORM lookup); a price the `asset.save()` rejects as out of range; a cached asset page without `results`.
- PriceConsumer.SetPrice: stores the price as sent. The column keeps two decimal places, while the broadcast carries the in-memory, unrounded value.
- Integration.PushedValueMatchesServer: holds on exact reals. It does not account for the two-decimal rounding of the stored price, nor for `parseFloat` of the broadcast text.
- QueryCache.SetData: the `stale` flag is the invalidation flag only. Time-based staleness is not modelled; with the default `staleTime` of 0, TanStack treats every entry as stale at once.
- QueryCache.Invalidate: touches the exact key only. `invalidateQueries({queryKey})` also invalidates every query whose key starts with that key; no such longer keys are modelled.
- Ownership.InvestmentsOf: keeps table order. The `-date` ordering of the investment model is not modelled; `Portfolio.TotalInvestedPermutation` shows that the figures do not depend on it.
- URL routing, the ASGI setup and the channel layer backend. Only their effect appears: the consumer's scope has no user.
- Network, socket and database I/O: each async handler is one atomic step, with the outcome of the POST, the decode, or the refresh given as input.
- `ReconnectingWebSocket` and its reconnects, `socket.close` on unmount, and concurrent handler runs.
- `jwtDecode` internals: its result is an input.
- `cancelQueries`, the refetch after an invalidation, and `useQuery` loading states.
- JSX rendering, `alert`, `console` output, `setShowAddForm` and `setEditAsset`.
- Path normalisation in the router: paths are compared as exact strings.
- The login POST itself passing through the interceptor. The two are modelled separately.
- The remaining pages and components (registration, goal cards and lists, the investment form, the summary panel) are not part of this model.

=== FILE: admin_dashboard.dfy ===
/** The cache effects of the admin dashboard's asset mutations: the
    optimistic price edit with its snapshot and rollback, and the
    invalidations after an edit settles or an asset is added. */
module AdminDashboard {
  import opened Wrappers
  import opened QueryCache

  /** The `results.map` updater: the asset whose `id` matches gets the new
      price text and keeps every other field; the others are unchanged, and
      the list keeps its order and length. */
  function WithPrice(results: seq<CachedAsset>, id: int, price: string): (r: seq<CachedAsset>)
    ensures |r| == |results|
    ensures forall i :: 0 <= i < |results| && results[i].id == id ==>
              r[i].currentPrice == price && r[i].(currentPrice := results[i].currentPrice) == results[i]
    ensures forall i :: 0 <= i < |results| && results[i].id != id ==> r[i] == results[i]
  {
    if results == [] then []
    else
      var a := results[0];
      var rest := WithPrice(results[1..], id, price);
      var r := [if a.id == id then a.(currentPrice := price) else a] + rest;
      assert forall i :: 1 <= i < |results| ==> r[i] == rest[i - 1] && results[i] == results[1..][i - 1];
      r
  }

  /** The cache after `onMutate` and the snapshot it returns as context. */
  datatype Mutated = Mutated(entries: Entries, snapshot: Option<AssetListResponse>)

  /** `onMutate`: snapshot `['assets']`; when there is a page, write the
      optimistic page (same `count`, patched `results`). With no cached page
      nothing is written and the snapshot is `undefined`. */
  function MutateStep(m: Entries, id: int, price: string): (r: Mutated)
    requires WellTyped(m)
    ensures WellTyped(r.entries)
    ensures r.snapshot.Some? <==> AssetsKey in m
    ensures r.snapshot.None? ==> r.entries == m
    ensures r.snapshot.Some? ==>
              && r.snapshot.value == m[AssetsKey].data.page
              && r.entries == SetData(m, AssetsKey, AssetPage(r.snapshot.value.(results := WithPrice(r.snapshot.value.results, id, price))))
  {
    if AssetsKey in m then
      var previous := m[AssetsKey].data.page;
      Mutated(SetData(m, AssetsKey, AssetPage(previous.(results := WithPrice(previous.results, id, price)))), Some(previous))
    else Mutated(m, None)
  }

  /** `onError`: with a snapshot in the context, put it back. */
  function RollbackStep(m: Entries, snapshot: Option<AssetListResponse>): (r: Entries)
    requires WellTyped(m)
    ensures WellTyped(r)
    ensures snapshot.None? ==> r == m
    ensures snapshot.Some? ==> AssetsKey in r && r[AssetsKey] == Entry(AssetPage(snapshot.value), false)
    ensures forall k :: k in m && k != AssetsKey ==> k in r && r[k] == m[k]
    ensures r.Keys == m.Keys + (if snapshot.Some? then {AssetsKey} else {})
  {
    if snapshot.Some? then SetData(m, AssetsKey, AssetPage(snapshot.value)) else m
  }

  /** A failed edit, start to finish (`onMutate`, `onError`, `onSettled`):
      the page is back to exactly what it was before the edit, marked
      stale, and every other key is untouched; with nothing cached, nothing
      changes. */
  lemma FailedEditRestores(m: Entries, id: int, price: string)
    requires WellTyped(m)
    ensures var mu := MutateStep(m, id, price);
            Invalidate(RollbackStep(mu.entries, mu.snapshot), AssetsKey)
            == (if AssetsKey in m then m[AssetsKey := Entry(m[AssetsKey].data, true)] else m)
  {
    var mu := MutateStep(m, id, price);
    var final := Invalidate(RollbackStep(mu.entries, mu.snapshot), AssetsKey);
    if AssetsKey in m {
      var expected := m[AssetsKey := Entry(m[AssetsKey].data, true)];
      assert final.Keys == expected.Keys;
      forall k | k in final ensures final[k] == expected[k] {
      }
    }
  }

  /** A successful edit (`onMutate`, `onSettled`): the page shows the new
      price on the edited asset only, and is stale so that it is refetched. */
  lemma SucceededEditShowsPrice(m: Entries, id: int, price: string)
    requires WellTyped(m) && AssetsKey in m
    ensures var final := Invalidate(MutateStep(m, id, price).entries, AssetsKey);
            var before := m[AssetsKey].data.page;
            && final[AssetsKey] == Entry(AssetPage(before.(results := WithPrice(before.results, id, price))), true)
            && forall k :: k in m && k != AssetsKey ==> final[k] == m[k]
  {
  }

  /** `editAssetMutation.onMutate`; the refetch cancellation before the
      snapshot has no effect on cached data and is not modelled. */
  method OnMutate(client: QueryClient, id: int, price: string) returns (snapshot: Option<AssetListResponse>)
    requires client.Valid()
    modifies client
    ensures client.Valid()
    ensures client.entries == MutateStep(old(client.entries), id, price).entries
    ensures snapshot == MutateStep(old(client.entries), id, price).snapshot
  {
    var previous := client.GetQueryData(AssetsKey);
    if previous.Some? {
      var page := previous.value.page;
      client.SetQueryData(AssetsKey, AssetPage(page.(results := WithPrice(page.results, id, price))));
      snapshot := Some(page);
    } else {
      snapshot := None;
    }
  }

  /** `editAssetMutation.onError`; the alert is not modelled. */
  method OnError(client: QueryClient, snapshot: Option<AssetListResponse>)
    requires client.Valid()
    modifies client
    ensures client.Valid()
    ensures client.entries == RollbackStep(old(client.entries), snapshot)
  {
    if snapshot.Some? {
      client.SetQueryData(AssetsKey, AssetPage(snapshot.value));
    }
  }

  /** `editAssetMutation.onSettled`, after success or error. */
  method OnSettled(client: QueryClient)
    requires client.Valid()
    modifies client
    ensures client.Valid()
    ensures client.entries == Invalidate(old(client.entries), AssetsKey)
  {
    client.InvalidateQueries(AssetsKey);
  }

  /** `addAssetMutation.onSuccess`. */
  method OnAddSuccess(client: QueryClient)
    requires client.Valid()
    modifies client
    ensures client.Valid()
    ensures client.entries == Invalidate(old(client.entries), AssetsKey)
  {
    client.InvalidateQueries(AssetsKey);
  }
}

=== FILE: api_client.dfy ===
/** The request interceptor of the shared API client: read the stored
    access token, decide whether it has expired, refresh it once if so, and
    attach it as a bearer header. The token decoder and the refresh POST are
    inputs: what decoding the stored token yields, and how the POST ends. */
module ApiClient {
  import opened Wrappers
  import opened Browser

  const AuthorizationHeader: string := "Authorization"
  const LoginPath: string := "/login"

  /** What `jwtDecode` does with the stored token: throw, or yield claims
      with an optional `exp` (seconds since the epoch). */
  datatype Decoded = DecodeFailed | Claims(exp: Option<int>)

  /** How the refresh POST ends: a 2xx response with a new access token, or
      a rejection of any kind. */
  datatype RefreshOutcome = Refreshed(access: string) | RefreshRejected

  datatype RequestConfig = RequestConfig(url: string, headers: map<string, string>)

  /** The request goes out with this config, or the request is rejected. */
  datatype Interception = Send(config: RequestConfig) | Reject(reason: Rejection)

  /** A decode error escapes the interceptor; a refresh error is re-thrown
      after the session is cleared. */
  datatype Rejection = InvalidTokenError | RefreshError

  /** `decoded.exp && decoded.exp * 1000 < Date.now()`: strictly past, and
      both an absent `exp` and an `exp` of 0 (falsy) count as not expired. */
  predicate IsExpired(exp: Option<int>, nowMillis: int)
    ensures IsExpired(exp, nowMillis) ==> exp.Some? && exp.value != 0
    ensures exp.Some? && exp.value != 0 ==> (IsExpired(exp, nowMillis) <==> nowMillis > exp.value * 1000)
  {
    exp.Some? && exp.value != 0 && exp.value * 1000 < nowMillis
  }

  /** Expiry is permanent: once a token counts as expired it stays expired
      at every later time, and a token is live up to and including the
      millisecond its `exp` second starts. */
  lemma ExpiryIsPermanent(exp: Option<int>, t1: int, t2: int)
    requires t1 <= t2
    ensures IsExpired(exp, t1) ==> IsExpired(exp, t2)
    ensures exp.Some? && t2 <= exp.value * 1000 ==> !IsExpired(exp, t2)
  {
  }

  /** The state after one interception: storage, location, the outcome, and
      the bodies of the refresh POSTs sent (the stored refresh token, `null`
      when absent). */
  datatype Intercepted = Intercepted(
    storage: Storage, location: string, result: Interception, refreshPosts: seq<Option<string>>)

  function WithBearer(config: RequestConfig, token: string): RequestConfig {
    config.(headers := config.headers[AuthorizationHeader := Bearer(token)])
  }

  function InterceptStep(s: Storage, location: string, config: RequestConfig, decoded: Decoded,
                         nowMillis: int, refresh: RefreshOutcome): (r: Intercepted)
    // at most one refresh per request, and only for a decodable expired token
    ensures |r.refreshPosts| <= 1
    ensures |r.refreshPosts| == 1 <==> HasToken(s) && decoded.Claims? && IsExpired(decoded.exp, nowMillis)
    ensures |r.refreshPosts| == 1 ==> r.refreshPosts[0] == GetItem(s, RefreshTokenKey)
    // without a token the request passes untouched
    ensures !HasToken(s) ==> r == Intercepted(s, location, Send(config), [])
    // a token that cannot be decoded rejects the request and changes nothing
    ensures HasToken(s) && decoded.DecodeFailed? ==> r == Intercepted(s, location, Reject(InvalidTokenError), [])
    // a live token (or one without `exp`) is attached as it is
    ensures HasToken(s) && decoded.Claims? && !IsExpired(decoded.exp, nowMillis) ==>
              r == Intercepted(s, location, Send(WithBearer(config, s[AccessTokenKey])), r.refreshPosts)
    // a refresh that succeeds replaces the access token only, and sends the new one
    ensures |r.refreshPosts| == 1 && refresh.Refreshed? ==>
              && r.storage == s[AccessTokenKey := refresh.access]
              && r.location == location
              && r.result == Send(WithBearer(config, refresh.access))
    // a refresh that fails drops both tokens, goes to the login page and rejects
    ensures |r.refreshPosts| == 1 && refresh.RefreshRejected? ==>
              && r.storage == RemoveTokens(s)
              && r.location == LoginPath
              && r.result == Reject(RefreshError)
  {
    if !HasToken(s) then Intercepted(s, location, Send(config), [])
    else
      var token := s[AccessTokenKey];
      match decoded
      case DecodeFailed => Intercepted(s, location, Reject(InvalidTokenError), [])
      case Claims(exp) =>
        if IsExpired(exp, nowMillis) then
          var posts := [GetItem(s, RefreshTokenKey)];
          match refresh
          case Refreshed(access) => Intercepted(s[AccessTokenKey := access], location, Send(WithBearer(config, access)), posts)
          case RefreshRejected => Intercepted(RemoveTokens(s), LoginPath, Reject(RefreshError), posts)
        else Intercepted(s, location, Send(WithBearer(config, token)), [])
  }

  /** A request the interceptor sends while a token is stored carries exactly
      the access token stored afterwards. */
  lemma SentHeaderMatchesStore(s: Storage, location: string, config: RequestConfig, decoded: Decoded,
                               nowMillis: int, refresh: RefreshOutcome)
    requires HasToken(s)
    requires InterceptStep(s, location, config, decoded, nowMillis, refresh).result.Send?
    ensures var r := InterceptStep(s, location, config, decoded, nowMillis, refresh);
            && AccessTokenKey in r.storage
            && r.result.config.headers[AuthorizationHeader] == Bearer(r.storage[AccessTokenKey])
  {
  }

  /** The identity keys and every other unrelated key come through any
      interception unchanged; the refresh token is touched only by a failed
      refresh. */
  lemma InterceptKeepsIdentity(s: Storage, location: string, config: RequestConfig, decoded: Decoded,
                               nowMillis: int, refresh: RefreshOutcome)
    ensures var r := InterceptStep(s, location, config, decoded, nowMillis, refresh);
            && (forall k :: k !in TokenKeys ==> (k in r.storage <==> k in s))
            && (forall k :: k in s && k !in TokenKeys ==> r.storage[k] == s[k])
            && (r.result != Reject(RefreshError) ==> GetItem(r.storage, RefreshTokenKey) == GetItem(s, RefreshTokenKey))
  {
  }

  /** After a failed refresh the next request goes out without credentials
      and without another refresh: the failure never loops. */
  lemma FailedRefreshDoesNotLoop(s: Storage, location: string, config: RequestConfig, decoded: Decoded,
                                 nowMillis: int, config2: RequestConfig, decoded2: Decoded,
                                 nowMillis2: int, refresh2: RefreshOutcome)
    requires InterceptStep(s, location, config, decoded, nowMillis, RefreshRejected).result == Reject(RefreshError)
    ensures var r := InterceptStep(s, location, config, decoded, nowMillis, RefreshRejected);
            InterceptStep(r.storage, r.location, config2, decoded2, nowMillis2, refresh2)
            == Intercepted(r.storage, LoginPath, Send(config2), [])
  {
  }

  /** A token without `exp`, or with `exp` 0, is never refreshed: it is
      attached as it is, however old it is. */
  lemma NoExpiryMeansAttached(s: Storage, location: string, config: RequestConfig, exp: Option<int>,
                              nowMillis: int, refresh: RefreshOutcome)
    requires HasToken(s) && (exp.None? || exp == Some(0))
    ensures InterceptStep(s, location, config, Claims(exp), nowMillis, refresh)
            == Intercepted(s, location, Send(WithBearer(config, s[AccessTokenKey])), [])
  {
  }

  /** The interceptor installed on the shared client. */
  method RequestInterceptor(w: Window, config: RequestConfig, decoded: Decoded, nowMillis: int, refresh: RefreshOutcome)
    returns (result: Interception, refreshPosts: seq<Option<string>>)
    modifies w
    ensures var r := InterceptStep(old(w.storage), old(w.location), config, decoded, nowMillis, refresh);
            && w.storage == r.storage && w.location == r.location
            && result == r.result && refreshPosts == r.refreshPosts
    ensures w.defaultAuthorization == (if result == Reject(RefreshError) then None else old(w.defaultAuthorization))
  {
    refreshPosts := [];
    var token := GetItem(w.storage, AccessTokenKey);
    if token.None? || token.value == "" {
      return Send(config), refreshPosts;
    }
    if decoded.DecodeFailed? {
      return Reject(InvalidTokenError), refreshPosts;
    }
    if IsExpired(decoded.exp, nowMillis) {
      refreshPosts := refreshPosts + [GetItem(w.storage, RefreshTokenKey)];
      if refresh.Refreshed? {
        w.storage := w.storage[AccessTokenKey := refresh.access];
        result := Send(WithBearer(config, refresh.access));
      } else {
        w.storage := w.storage - {AccessTokenKey};
        w.storage := w.storage - {RefreshTokenKey};
        w.location := LoginPath;
        w.defaultAuthorization := None;
        result := Reject(RefreshError);
      }
    } else {
      result := Send(WithBearer(config, token.value));
    }
  }
}

=== FILE: app_routes.dfy ===
/** The application's route table and its admin gate. */
module AppRoutes {
  import opened Wrappers
  import opened Browser

  /** The pages the routes render. `/register-staff` renders `Register`
      because its element is imported from the register page; `/`,
      `/dashboard` and the user dashboard all come from the same page. */
  datatype Page = LoginPage | RegisterPage | UserDashboard | AdminDashboard

  /** A route's element: a page, rendered inside the layout or not, or a
      redirect to another path. */
  datatype Element = Render(page: Page, inLayout: bool) | Redirect(to: string)

  /** `isAdmin()`: the stored flag is exactly the text "true". */
  predicate IsAdmin(s: Storage)
    ensures IsAdmin(s) <==> GetItem(s, IsDataAdminKey) == Some("true")
  {
    IsDataAdminKey in s && s[IsDataAdminKey] == "true"
  }

  /** The element the router picks for a path. */
  function Route(path: string, s: Storage): (r: Element)
    ensures path == "/login" ==> r == Render(LoginPage, false)
    ensures path == "/register" ==> r == Render(RegisterPage, false)
    ensures path == "/register-staff" ==> r == Render(RegisterPage, false)
    // the index route has no admin gate
    ensures path == "/" ==> r == Render(UserDashboard, true)
    // the catch-all
    ensures path !in {"/login", "/register", "/register-staff", "/dashboard", "/admin-dashboard", "/"} ==>
              r == Redirect("/dashboard")
    ensures path == "/dashboard" ==>
              (IsAdmin(s) ==> r == Redirect("/admin-dashboard")) && (!IsAdmin(s) ==> r == Render(UserDashboard, true))
    ensures path == "/admin-dashboard" ==>
              (IsAdmin(s) ==> r == Render(AdminDashboard, true)) && (!IsAdmin(s) ==> r == Redirect("/dashboard"))
    ensures r.Redirect? ==> r.to in {"/dashboard", "/admin-dashboard"}
    ensures r == Render(AdminDashboard, true) ==> IsAdmin(s)
  {
    if path == "/login" then Render(LoginPage, false)
    else if path == "/register" then Render(RegisterPage, false)
    else if path == "/register-staff" then Render(RegisterPage, false)
    else if path == "/dashboard" then
      (if IsAdmin(s) then Redirect("/admin-dashboard") else Render(UserDashboard, true))
    else if path == "/admin-dashboard" then
      (if IsAdmin(s) then Render(AdminDashboard, true) else Redirect("/dashboard"))
    else if path == "/" then Render(UserDashboard, true)
    else Redirect("/dashboard")
  }

  /** Follow redirects from `path`, at most `hops` of them; the last
      redirect is returned when no page is reached within that many. */
  function Resolve(path: string, s: Storage, hops: nat): (r: Element)
    decreases hops
  {
    match Route(path, s)
    case Render(p, l) => Render(p, l)
    case Redirect(to) => if hops == 0 then Redirect(to) else Resolve(to, s, hops - 1)
  }

  /** For any stored flag exactly one of the two dashboards renders and the
      other redirects to it. */
  lemma ExactlyOneDashboardRenders(s: Storage)
    ensures Route("/dashboard", s).Render? != Route("/admin-dashboard", s).Render?
    ensures Route("/dashboard", s).Redirect? ==> Route("/dashboard", s).to == "/admin-dashboard"
    ensures Route("/admin-dashboard", s).Redirect? ==> Route("/admin-dashboard", s).to == "/dashboard"
  {
  }

  /** There is no redirect cycle: every path reaches a page within two
      redirects (an unknown path goes to `/dashboard`, which may send an
      admin on to `/admin-dashboard`), and the page reached is the dashboard
      that matches the stored flag. */
  lemma {:induction false} NoRedirectCycle(path: string, s: Storage)
    ensures Resolve(path, s, 2).Render?
    ensures Route(path, s).Redirect? ==>
              Resolve(path, s, 2).page == (if IsAdmin(s) then AdminDashboard else UserDashboard)
  {
    var first := Route(path, s);
    if first.Redirect? {
      var second := Route(first.to, s);
      if second.Redirect? {
        assert Route(second.to, s).Render?;
      }
    }
  }
}

=== FILE: browser.dfy ===
/** The browser state the client's session code touches: `localStorage` as
    a map from key to text, the current location (both `navigate` and
    `window.location.href` assignments are recorded as the target path), and
    the default `Authorization` header of the shared axios instance, which
    lives in memory: `navigate` keeps it, an `href` assignment reloads the
    page and drops it. */
module Browser {
  import opened Wrappers

  const AccessTokenKey: string := "access_token"
  const RefreshTokenKey: string := "refresh_token"
  const UserIdKey: string := "user_id"
  const UsernameKey: string := "username"
  const EmailKey: string := "email"
  const IsDataAdminKey: string := "is_data_admin"

  /** The two keys every logout path removes. */
  const TokenKeys: set<string> := {AccessTokenKey, RefreshTokenKey}
  /** The identity keys written at login and never removed. */
  const IdentityKeys: set<string> := {UserIdKey, UsernameKey, EmailKey, IsDataAdminKey}

  type Storage = map<string, string>

  /** `localStorage.getItem(key)`, with `null` as `None`. */
  function GetItem(s: Storage, key: string): (r: Option<string>)
    ensures r.Some? <==> key in s
    ensures r.Some? ==> r.value == s[key]
  {
    if key in s then Some(s[key]) else None
  }

  /** The stored access token is truthy: present and not empty. */
  predicate HasToken(s: Storage)
    ensures HasToken(s) <==> GetItem(s, AccessTokenKey).Some? && GetItem(s, AccessTokenKey).value != ""
  {
    AccessTokenKey in s && s[AccessTokenKey] != ""
  }

  /** The two `removeItem` calls of a logout: the tokens go, every other key
      keeps its value. */
  function RemoveTokens(s: Storage): (r: Storage)
    ensures r.Keys == s.Keys - TokenKeys
    ensures forall k :: k in r ==> r[k] == s[k]
    ensures !HasToken(r)
  {
    s - TokenKeys
  }

  /** Removing absent keys is a no-op, so a second logout changes nothing. */
  lemma RemoveTokensIdempotent(s: Storage)
    ensures RemoveTokens(RemoveTokens(s)) == RemoveTokens(s)
  {
  }

  /** The text of the `Authorization` header for a token. */
  function Bearer(token: string): (r: string)
    ensures |r| == |token| + 7 && r[..7] == "Bearer " && r[7..] == token
  {
    "Bearer " + token
  }

  /** `String(n)` for a non-negative integer: its decimal digits. */
  function DecimalString(n: nat): (r: string)
    ensures |r| >= 1
    ensures forall i :: 0 <= i < |r| ==> '0' <= r[i] <= '9'
    ensures n < 10 <==> |r| == 1
    ensures |r| > 1 ==> r[0] != '0'
  {
    if n < 10 then [Digit(n)] else DecimalString(n / 10) + [Digit(n % 10)]
  }

  function Digit(d: nat): (c: char)
    requires d < 10
    ensures '0' <= c <= '9'
  {
    ['0', '1', '2', '3', '4', '5', '6', '7', '8', '9'][d]
  }

  /** Distinct numbers print differently, so a printed id names one number. */
  lemma {:induction false} DecimalStringInjective(m: nat, n: nat)
    requires DecimalString(m) == DecimalString(n)
    ensures m == n
  {
    var s := DecimalString(m);
    if m < 10 || n < 10 {
      assert |s| == 1;
      assert m < 10 && n < 10;
      assert Digit(m) == s[0] == Digit(n);
    } else {
      var k := |s| - 1;
      assert DecimalString(m / 10) == s[..k] == DecimalString(n / 10);
      DecimalStringInjective(m / 10, n / 10);
      assert Digit(m % 10) == s[k] == Digit(n % 10);
    }
  }

  /** The browser-wide state the session code reads and writes. */
  class Window {
    var storage: Storage
    var location: string
    /** `api.defaults.headers.common['Authorization']`. */
    var defaultAuthorization: Option<string>

    constructor (storage: Storage, location: string)
      ensures this.storage == storage && this.location == location && defaultAuthorization.None?
    {
      this.storage, this.location, defaultAuthorization := storage, location, None;
    }
  }
}

=== FILE: goal_form.dfy ===
/** The goal form's asset handling: which asset list it shows, how choosing
    an asset fills in the hidden name and type fields, and which fields
    must be filled before it submits. */
module GoalForm {
  import opened Wrappers
  import opened Browser

  /** An entry of the asset list; options carry `String(id)` as their value. */
  datatype AssetOption = AssetOption(id: nat, name: string, ticker: string, assetType: string)

  /** The `['assets']` query's data; a response without `results` is `None`. */
  datatype AssetsData = AssetsData(results: Option<seq<AssetOption>>)

  /** `assetsData?.results || initialAssets`: fetched results win whenever
      present (an empty array is truthy too); otherwise the prop. `None`
      means the form renders nothing. */
  function SelectAssets(fetched: Option<AssetsData>, prop: Option<seq<AssetOption>>): (r: Option<seq<AssetOption>>)
    ensures fetched.Some? && fetched.value.results.Some? ==> r == fetched.value.results
    ensures !(fetched.Some? && fetched.value.results.Some?) ==> r == prop
    ensures r.None? <==> !(fetched.Some? && fetched.value.results.Some?) && prop.None?
  {
    if fetched.Some? && fetched.value.results.Some? then fetched.value.results else prop
  }

  /** `assets.find(a => String(a.id) === value)`, as the position of the
      first asset in list order whose printed id is `value`. */
  function FindIndex(assets: seq<AssetOption>, value: string): (r: Option<nat>)
    ensures r.Some? ==> r.value < |assets| && DecimalString(assets[r.value].id) == value
    ensures r.Some? ==> forall j :: 0 <= j < r.value ==> DecimalString(assets[j].id) != value
    ensures r.None? ==> forall j :: 0 <= j < |assets| ==> DecimalString(assets[j].id) != value
  {
    if assets == [] then None
    else if DecimalString(assets[0].id) == value then Some(0)
    else
      match FindIndex(assets[1..], value)
      case None => None
      case Some(i) => Some(i + 1)
  }

  /** The placeholder option (value "") matches no asset, since a printed
      id always has a digit. */
  lemma PlaceholderMatchesNothing(assets: seq<AssetOption>)
    ensures FindIndex(assets, "") == None
  {
  }

  /** Choosing the option of a listed asset finds an asset with that very
      id: the first one in the list, when ids repeat. */
  lemma ChoosingAnAssetFindsItsId(assets: seq<AssetOption>, k: nat)
    requires k < |assets|
    ensures FindIndex(assets, DecimalString(assets[k].id)).Some?
    ensures var i := FindIndex(assets, DecimalString(assets[k].id)).value;
            i <= k && assets[i].id == assets[k].id
  {
    var i := FindIndex(assets, DecimalString(assets[k].id)).value;
    DecimalStringInjective(assets[i].id, assets[k].id);
  }

  /** The form's values. `asset` is the select's text (`None` before any
      choice); the numbers are `floatValue`s, `None` while a box is empty. */
  datatype FormValues = FormValues(
    asset: Option<string>, name: string, investmentType: string,
    targetAmount: Option<real>, yearsToInvest: Option<real>, monthlyContribution: Option<real>)

  /** The fields whose `required` rule fails. `name` and `investmentType`
      have no rule. */
  function RequiredErrors(v: FormValues): (r: set<string>)
    ensures r <= {"asset", "target_amount", "years_to_invest", "monthly_contribution"}
    ensures "asset" in r <==> v.asset.None? || v.asset == Some("")
    ensures "target_amount" in r <==> v.targetAmount.None?
    ensures "years_to_invest" in r <==> v.yearsToInvest.None?
    ensures "monthly_contribution" in r <==> v.monthlyContribution.None?
  {
    (if v.asset.None? || v.asset == Some("") then {"asset"} else {})
    + (if v.targetAmount.None? then {"target_amount"} else {})
    + (if v.yearsToInvest.None? then {"years_to_invest"} else {})
    + (if v.monthlyContribution.None? then {"monthly_contribution"} else {})
  }

  /** The select's `onChange` applied to the form values. */
  function ChooseAsset(v: FormValues, assets: seq<AssetOption>, value: string): (r: FormValues)
    ensures r.asset == Some(value)
    ensures FindIndex(assets, value).Some? ==>
              && r.name == assets[FindIndex(assets, value).value].name
              && r.investmentType == assets[FindIndex(assets, value).value].assetType
    ensures FindIndex(assets, value).None? ==> r.name == "" && r.investmentType == ""
    ensures r.(asset := v.asset, name := v.name, investmentType := v.investmentType) == v
  {
    match FindIndex(assets, value)
    case Some(i) => v.(asset := Some(value), name := assets[i].name, investmentType := assets[i].assetType)
    case None => v.(asset := Some(value), name := "", investmentType := "")
  }

  /** Going back to the placeholder clears the auto-filled fields and makes
      the asset rule fail again, so the form cannot be submitted. */
  lemma PlaceholderBlocksSubmit(v: FormValues, assets: seq<AssetOption>)
    ensures var r := ChooseAsset(v, assets, "");
            r.name == "" && r.investmentType == "" && "asset" in RequiredErrors(r)
  {
    PlaceholderMatchesNothing(assets);
  }

  /** The form's state as `react-hook-form` holds it. */
  class GoalFormState {
    var values: FormValues

    constructor (defaults: FormValues)
      ensures values == defaults
    {
      values := defaults;
    }

    /** `onChange` of the asset select: record the choice, then fill in the
        name and type from the first asset whose id prints as the choice,
        or clear both when none does. */
    method OnAssetChange(assets: seq<AssetOption>, value: string)
      modifies this
      ensures values == ChooseAsset(old(values), assets, value)
    {
      values := values.(asset := Some(value));
      var selected := FindIndex(assets, value);
      if selected.Some? {
        values := values.(name := assets[selected.value].name);
        values := values.(investmentType := assets[selected.value].assetType);
      } else {
        values := values.(name := "");
        values := values.(investmentType := "");
      }
    }
  }
}

=== FILE: header.dfy ===
/** The layout header's logout button. */
module Header {
  import opened Wrappers
  import opened Browser

  /** `handleLogout`: remove the two tokens, then go to the login page. The
      identity keys stay. Assigning `window.location.href` loads a new
      document, so the client's default header set in memory is gone. */
  method HandleLogout(w: Window)
    modifies w
    ensures w.storage == RemoveTokens(old(w.storage))
    ensures w.location == "/login"
    ensures w.defaultAuthorization.None?
  {
    w.storage := w.storage - {AccessTokenKey};
    w.storage := w.storage - {RefreshTokenKey};
    w.location := "/login";
    w.defaultAuthorization := None;
  }
}

=== FILE: integration.dfy ===
/** Properties that hold across the boundaries between the backend and the
    client: what the login payload does to the client's routing, what logout
    leaves behind, and how a pushed price compares with the server's own
    figure. */
module Integration {
  import opened Wrappers
  import opened Browser
  import Ownership
  import Login
  import AppRoutes
  import ApiClient
  import Portfolio
  import PriceConsumer
  import QueryCache
  import PriceSocket

  /** The client's view of the backend's login body: the field the client
      reads as `is_data_admin` is not in it, so it is `undefined`, and the
      landing page is always the user dashboard. */
  function ClientView(d: Ownership.LoginData): (r: Login.LoginResponseData)
    ensures r.isDataAdmin == Login.Undefined
    ensures Login.LandingPath(r) == Login.DashboardPath
    ensures r.access == d.access && r.refresh == d.refresh
  {
    Login.LoginResponseData(d.access, d.refresh, d.userId, d.username, d.email, Login.Undefined)
  }

  /** Whatever the user's role, a login through the backend's login view
      stores the text "undefined" as the admin flag, lands on the user
      dashboard, and leaves the admin dashboard redirecting away. */
  lemma ServerLoginNeverAdmin(s: Storage, v: Ownership.LoginValidation)
    requires Ownership.LoginPost(v).status == 200
    ensures var d := ClientView(Ownership.LoginPost(v).body.data);
            var after := Login.StoreSession(s, d);
            && after[IsDataAdminKey] == "undefined"
            && Login.LandingPath(d) == Login.DashboardPath
            && !AppRoutes.IsAdmin(after)
            && AppRoutes.Route("/admin-dashboard", after) == AppRoutes.Redirect("/dashboard")
  {
  }

  /** The page a login navigates to renders directly: the landing path and
      the route gate read the same flag, since only a `true` flag is stored
      as the text "true". */
  lemma LoginLandsWithoutRedirect(s: Storage, d: Login.LoginResponseData)
    ensures var after := Login.StoreSession(s, d);
            && AppRoutes.IsAdmin(after) == (d.isDataAdmin == Login.Flag(true))
            && AppRoutes.Route(Login.LandingPath(d), after).Render?
  {
    var after := Login.StoreSession(s, d);
    assert after[IsDataAdminKey] == Login.FlagString(d.isDataAdmin);
    if d.isDataAdmin != Login.Flag(true) {
      assert Login.FlagString(d.isDataAdmin) != "true" by {
        assert Login.FlagString(d.isDataAdmin)[0] != 't' || |Login.FlagString(d.isDataAdmin)| != 4;
      }
    }
  }

  /** Logout keeps the admin flag, so after an admin logs out the admin
      route still renders the admin page, with no tokens stored. */
  lemma AdminFlagSurvivesLogout(s: Storage)
    ensures AppRoutes.IsAdmin(RemoveTokens(s)) == AppRoutes.IsAdmin(s)
    ensures AppRoutes.IsAdmin(s) ==>
              AppRoutes.Route("/admin-dashboard", RemoveTokens(s)) == AppRoutes.Render(AppRoutes.AdminDashboard, true)
  {
    assert IsDataAdminKey !in TokenKeys;
  }

  /** Logout does not reset the client's default header, and the interceptor
      only ever adds one: after logout a request built from the defaults
      still goes out with the header installed at mount. */
  lemma LogoutKeepsDefaultHeader(s: Storage, location: string, config: ApiClient.RequestConfig,
                                 decoded: ApiClient.Decoded, nowMillis: int, refresh: ApiClient.RefreshOutcome)
    requires HasToken(s)
    requires ApiClient.AuthorizationHeader in config.headers
    requires config.headers[ApiClient.AuthorizationHeader] == Bearer(s[AccessTokenKey])
    ensures var r := ApiClient.InterceptStep(RemoveTokens(s), location, config, decoded, nowMillis, refresh);
            && r.result.Send?
            && r.result.config.headers[ApiClient.AuthorizationHeader] == Bearer(s[AccessTokenKey])
            && r.refreshPosts == []
  {
  }

  /** The `error.response.data` the login page receives for a failed POST. */
  function ClientError(resp: Ownership.Response): Option<Login.ErrorBody> {
    match resp.body
    case TokenPair(_) => None
    case Detail(detail) => Some(Login.ErrorBody(Some(detail), None))
    case FieldErrors(errors) =>
      Some(Login.ErrorBody(None, if "non_field_errors" in errors then Some(errors["non_field_errors"]) else None))
  }

  /** What the login page shows for each way the backend refuses a login:
      the framework's `detail` for rejected credentials (when not empty), and
      for invalid fields the first non-field error, or the default text when
      there is none (a missing username or password only has field-keyed
      errors). */
  lemma LoginErrorShown(v: Ownership.LoginValidation)
    requires !v.Validated?
    ensures var shown := Login.ErrorMessage(ClientError(Ownership.LoginPost(v)));
            && (v.Rejected? && v.detail != "" ==> shown == v.detail)
            && (v.Invalid? && "non_field_errors" !in v.errors ==> shown == Login.DefaultErrorMessage)
            && ((v.Invalid? && "non_field_errors" in v.errors && |v.errors["non_field_errors"]| > 0
                 && v.errors["non_field_errors"][0] != "") ==> shown == v.errors["non_field_errors"][0])
  {
  }

  /** The push frame the client parses from a broadcast event: it carries
      the asset's id, so it patches exactly the cached investments whose
      nested asset has that id, never a bare key. */
  function Delivered(ev: PriceConsumer.Event): (r: PriceSocket.PushEvent)
    ensures r.newPrice == ev.newPrice
    ensures forall inv :: PriceSocket.Matches(inv, r.assetId) <==> inv.asset == QueryCache.AssetObject(ev.assetId)
  {
    PriceSocket.PushEvent(Some(ev.assetId), ev.newPrice)
  }

  /** After the server writes price `p` for an asset and broadcasts it, a
      cached investment in that asset shows the server's own current value
      unless `p` is 0: the server then falls back to the purchase price
      while the client multiplies by 0. They agree exactly when `p` is
      non-zero or the investment cost nothing. */
  lemma PushedValueMatchesServer(inv: Portfolio.Investment, row: QueryCache.CachedInvestment, ev: PriceConsumer.Event)
    requires inv.asset.Some? && inv.asset.value.id == ev.assetId
    requires row.asset == QueryCache.AssetObject(ev.assetId) && row.quantity == inv.quantity
    ensures var server := inv.(asset := Some(inv.asset.value.(currentPrice := ev.newPrice)));
            var client := PriceSocket.PatchOne(row, Delivered(ev));
            (client.currentValue == Portfolio.CurrentValue(server).value)
            <==> (ev.newPrice != 0.0 || Portfolio.TotalCost(inv) == 0.0)
  {
    var server := inv.(asset := Some(inv.asset.value.(currentPrice := ev.newPrice)));
    assert PriceSocket.Matches(row, Delivered(ev).assetId);
    if ev.newPrice == 0.0 {
      assert Portfolio.CurrentValue(server).value == Portfolio.TotalCost(server);
      assert Portfolio.TotalCost(server) == Portfolio.TotalCost(inv);
    }
  }
}

=== FILE: login.dfy ===
/** The login page's submit handler: post the credentials, store the six
    session keys, go to the dashboard the admin flag selects, or show an
    error message picked from the error response. */
module Login {
  import opened Wrappers
  import opened Browser

  const AdminDashboardPath: string := "/admin-dashboard"
  const DashboardPath: string := "/dashboard"
  const DefaultErrorMessage: string := "Login failed. Please check your credentials."

  /** A JSON field that may be missing (`undefined`) or a boolean. */
  datatype JsFlag = Undefined | Flag(b: bool)

  /** `response.data` of a successful login POST. */
  datatype LoginResponseData = LoginResponseData(
    access: string, refresh: string, userId: nat, username: string, email: string, isDataAdmin: JsFlag)

  /** `error.response.data` of a failed POST. */
  datatype ErrorBody = ErrorBody(detail: Option<string>, nonFieldErrors: Option<seq<string>>)

  /** How the POST ends: a response, or a rejection with an error response
      (or none at all, as for a network failure). */
  datatype LoginOutcome = Success(data: LoginResponseData) | Failure(response: Option<ErrorBody>)

  const SessionKeys: set<string> := TokenKeys + IdentityKeys

  /** `String(value)`, which `setItem` stores. Only a `true` flag is
      stored as the text "true"; `false` becomes "false" and a missing one
      "undefined". */
  function FlagString(f: JsFlag): (r: string)
    ensures r == "true" <==> f == Flag(true)
    ensures f == Undefined ==> r == "undefined"
    ensures f == Flag(false) ==> r == "false"
    ensures r != ""
  {
    match f
    case Undefined => "undefined"
    case Flag(b) => if b then "true" else "false"
  }

  /** The six `setItem` calls: exactly the session keys are written, from
      the response; every other key keeps its value. */
  function StoreSession(s: Storage, d: LoginResponseData): (r: Storage)
    ensures r.Keys == s.Keys + SessionKeys
    ensures r[AccessTokenKey] == d.access && r[RefreshTokenKey] == d.refresh
    ensures r[UserIdKey] == DecimalString(d.userId) && r[UsernameKey] == d.username && r[EmailKey] == d.email
    ensures r[IsDataAdminKey] == FlagString(d.isDataAdmin)
    ensures forall k :: k in s && k !in SessionKeys ==> r[k] == s[k]
  {
    s[AccessTokenKey := d.access][RefreshTokenKey := d.refresh][UserIdKey := DecimalString(d.userId)]
     [UsernameKey := d.username][EmailKey := d.email][IsDataAdminKey := FlagString(d.isDataAdmin)]
  }

  /** A second login replaces every session key of the first: nothing of
      the first session is left. */
  lemma SecondLoginReplacesFirst(s: Storage, first: LoginResponseData, second: LoginResponseData)
    ensures StoreSession(StoreSession(s, first), second) == StoreSession(s, second)
  {
    var a, b := StoreSession(StoreSession(s, first), second), StoreSession(s, second);
    assert a.Keys == b.Keys;
    forall k | k in a ensures a[k] == b[k] {
    }
  }

  /** Where a successful login navigates: the admin dashboard exactly when
      `is_data_admin` is truthy. */
  function LandingPath(d: LoginResponseData): (r: string)
    ensures r == AdminDashboardPath <==> d.isDataAdmin == Flag(true)
    ensures r == AdminDashboardPath || r == DashboardPath
  {
    if d.isDataAdmin == Flag(true) then AdminDashboardPath else DashboardPath
  }

  /** `detail || non_field_errors?.[0] || default`: the first of these that
      is a non-empty string. The message is never empty. */
  function ErrorMessage(response: Option<ErrorBody>): (r: string)
    ensures r != ""
    ensures response.Some? && response.value.detail.Some? && response.value.detail.value != "" ==>
              r == response.value.detail.value
    ensures r != DefaultErrorMessage ==>
              response.Some? &&
              (|| (response.value.detail.Some? && r == response.value.detail.value)
               || (response.value.nonFieldErrors.Some? && |response.value.nonFieldErrors.value| > 0
                   && r == response.value.nonFieldErrors.value[0]))
    ensures response.None? ==> r == DefaultErrorMessage
    // `detail` is empty or absent: a non-empty first non-field error is next
    ensures response.Some? && !(response.value.detail.Some? && response.value.detail.value != "")
            && response.value.nonFieldErrors.Some? && |response.value.nonFieldErrors.value| > 0
            && response.value.nonFieldErrors.value[0] != "" ==>
              r == response.value.nonFieldErrors.value[0]
    // neither is a non-empty string: the default text
    ensures response.Some? && !(response.value.detail.Some? && response.value.detail.value != "")
            && !(response.value.nonFieldErrors.Some? && |response.value.nonFieldErrors.value| > 0
                 && response.value.nonFieldErrors.value[0] != "") ==>
              r == DefaultErrorMessage
  {
    match response
    case None => DefaultErrorMessage
    case Some(body) =>
      if body.detail.Some? && body.detail.value != "" then body.detail.value
      else if body.nonFieldErrors.Some? && |body.nonFieldErrors.value| > 0 && body.nonFieldErrors.value[0] != "" then
        body.nonFieldErrors.value[0]
      else DefaultErrorMessage
  }

  /** The login component's state and the browser it writes to. */
  class LoginPage {
    var loading: bool
    var errorMsg: Option<string>
    const window: Window

    constructor (window: Window)
      ensures this.window == window && !loading && errorMsg.None?
    {
      this.window := window;
      loading, errorMsg := false, None;
    }

    /** `onSubmit`: the error is cleared and `loading` set on entry; on
        success the session is stored and the landing page opened, on
        failure nothing is stored and the message is shown; `loading` is
        false after either. */
    method OnSubmit(outcome: LoginOutcome)
      modifies this, window
      ensures !loading
      ensures outcome.Success? ==>
                && errorMsg.None?
                && window.storage == StoreSession(old(window.storage), outcome.data)
                && window.location == LandingPath(outcome.data)
      ensures outcome.Failure? ==>
                && errorMsg == Some(ErrorMessage(outcome.response))
                && window.storage == old(window.storage)
                && window.location == old(window.location)
      ensures window.defaultAuthorization == old(window.defaultAuthorization)
    {
      loading := true;
      errorMsg := None;
      match outcome {
        case Success(d) =>
          window.storage := window.storage[AccessTokenKey := d.access];
          window.storage := window.storage[RefreshTokenKey := d.refresh];
          window.storage := window.storage[UserIdKey := DecimalString(d.userId)];
          window.storage := window.storage[UsernameKey := d.username];
          window.storage := window.storage[EmailKey := d.email];
          window.storage := window.storage[IsDataAdminKey := FlagString(d.isDataAdmin)];
          if d.isDataAdmin == Flag(true) {
            window.location := AdminDashboardPath;
          } else {
            window.location := DashboardPath;
          }
        case Failure(response) =>
          errorMsg := Some(ErrorMessage(response));
      }
      loading := false;
    }
  }
}

=== FILE: ownership.dfy ===
/** The REST views of the backend: per-user listing and owner assignment for
    goals and investments, and the login view's valid/invalid branch. The ORM
    tables are sequences of rows held by a `Database` object. */
module Ownership {
  import opened Wrappers

  type UserId = int

  datatype GoalFields = GoalFields(
    name: string, investmentType: string, assetId: Option<int>,
    targetAmount: real, yearsToInvest: nat, monthlyContribution: real)

  /** A row of the goal table; `user` is the owner. */
  datatype GoalRow = GoalRow(id: int, user: UserId, fields: GoalFields)

  datatype InvestmentFields = InvestmentFields(
    assetId: Option<int>, date: string, purchasePrice: real, quantity: real, notes: Option<string>)

  /** A row of the investment table; `goal` is the goal's primary key. */
  datatype InvestmentRow = InvestmentRow(id: int, goal: int, fields: InvestmentFields)

  /** A validated goal payload. `claimedUser` is whatever owner the client
      sent; the view never uses it. */
  datatype GoalPayload = GoalPayload(fields: GoalFields, claimedUser: Option<UserId>)

  /** `InvestmentGoal.objects.get` found no goal with that id and owner. */
  datatype ViewError = DoesNotExist

  // ---------------------------------------------------------------------
  // Listing
  // ---------------------------------------------------------------------

  /** The goal viewset's queryset: the requester's goals, in table order. */
  function GoalsOf(goals: seq<GoalRow>, user: UserId): (r: seq<GoalRow>)
    ensures |r| <= |goals|
    ensures forall g :: g in r <==> g in goals && g.user == user
  {
    if goals == [] then []
    else (if goals[0].user == user then [goals[0]] else []) + GoalsOf(goals[1..], user)
  }

  /** The owner of the goal with primary key `goalId`, if there is one (the
    first such row; keys are unique in a valid database). */
  function OwnerOf(goals: seq<GoalRow>, goalId: int): (r: Option<UserId>)
    ensures r.None? <==> forall g :: g in goals ==> g.id != goalId
    ensures r.Some? ==> exists g :: g in goals && g.id == goalId && g.user == r.value
  {
    if goals == [] then None
    else if goals[0].id == goalId then Some(goals[0].user)
    else OwnerOf(goals[1..], goalId)
  }

  /** The investment viewset's queryset (`goal__user`): the investments whose
      goal belongs to the requester. The model keeps table order; the
      `-date` ordering the queryset applies is not modelled. */
  function InvestmentsOf(invs: seq<InvestmentRow>, goals: seq<GoalRow>, user: UserId): (r: seq<InvestmentRow>)
    ensures |r| <= |invs|
    ensures forall inv :: inv in r <==> inv in invs && OwnerOf(goals, inv.goal) == Some(user)
  {
    if invs == [] then []
    else (if OwnerOf(goals, invs[0].goal) == Some(user) then [invs[0]] else [])
         + InvestmentsOf(invs[1..], goals, user)
  }

  /** `InvestmentGoal.objects.get(id=goal_id, user=requester)`: the goal with
      that key and that owner. A missing `goal` in the request (`None`)
      matches no row. */
  function FindOwnedGoal(goals: seq<GoalRow>, goalId: Option<int>, user: UserId): (r: Option<GoalRow>)
    ensures r.Some? ==> r.value in goals && goalId == Some(r.value.id) && r.value.user == user
    ensures r.None? ==> forall g :: g in goals ==> !(goalId == Some(g.id) && g.user == user)
  {
    if goals == [] then None
    else if goalId == Some(goals[0].id) && goals[0].user == user then Some(goals[0])
    else FindOwnedGoal(goals[1..], goalId, user)
  }

  /** Listing after an insert: the new goal shows up, at the end, in its
      owner's listing and in no one else's; every other listing is as before. */
  lemma {:induction false} GoalsOfAppend(goals: seq<GoalRow>, row: GoalRow, user: UserId)
    ensures GoalsOf(goals + [row], user) == GoalsOf(goals, user) + (if row.user == user then [row] else [])
  {
    if goals == [] {
      assert goals + [row] == [row];
    } else {
      assert (goals + [row])[1..] == goals[1..] + [row];
      GoalsOfAppend(goals[1..], row, user);
    }
  }

  /** Two different users never see a common goal. */
  lemma ListingsAreDisjoint(goals: seq<GoalRow>, u: UserId, v: UserId, g: GoalRow)
    requires u != v
    ensures !(g in GoalsOf(goals, u) && g in GoalsOf(goals, v))
  {
  }

  // ---------------------------------------------------------------------
  // Creation
  // ---------------------------------------------------------------------

  /** Goal keys are below their counter and distinct. */
  ghost predicate GoalsValid(goals: seq<GoalRow>, nextGoalId: int) {
    && (forall i :: 0 <= i < |goals| ==> goals[i].id < nextGoalId)
    && (forall i, j :: 0 <= i < j < |goals| ==> goals[i].id != goals[j].id)
  }

  /** Investment keys are below their counter and distinct, and every
      investment points at an existing goal. */
  ghost predicate InvestmentsValid(invs: seq<InvestmentRow>, goals: seq<GoalRow>, nextInvestmentId: int) {
    && (forall i :: 0 <= i < |invs| ==> invs[i].id < nextInvestmentId)
    && (forall i, j :: 0 <= i < j < |invs| ==> invs[i].id != invs[j].id)
    && (forall i :: 0 <= i < |invs| ==> OwnerOf(goals, invs[i].goal).Some?)
  }

  /** Appending a goal under the counter's key keeps both tables valid. */
  lemma GoalAppendValid(goals: seq<GoalRow>, invs: seq<InvestmentRow>, nextGoalId: int, nextInvestmentId: int, row: GoalRow)
    requires GoalsValid(goals, nextGoalId) && InvestmentsValid(invs, goals, nextInvestmentId)
    requires row.id == nextGoalId
    requires forall id :: id != row.id ==> OwnerOf(goals + [row], id) == OwnerOf(goals, id)
    requires OwnerOf(goals + [row], row.id) == Some(row.user)
    ensures GoalsValid(goals + [row], nextGoalId + 1) && InvestmentsValid(invs, goals + [row], nextInvestmentId)
  {
    var g := goals + [row];
    forall i | 0 <= i < |invs| ensures OwnerOf(g, invs[i].goal).Some? {
      if invs[i].goal != row.id {
        assert OwnerOf(g, invs[i].goal) == OwnerOf(goals, invs[i].goal);
      }
    }
  }

  /** Appending an investment under the counter's key, pointing at an
      existing goal, keeps the investment table valid. */
  lemma InvestmentAppendValid(invs: seq<InvestmentRow>, goals: seq<GoalRow>, nextInvestmentId: int, row: InvestmentRow)
    requires InvestmentsValid(invs, goals, nextInvestmentId)
    requires row.id == nextInvestmentId && OwnerOf(goals, row.goal).Some?
    ensures InvestmentsValid(invs + [row], goals, nextInvestmentId + 1)
  {
    var v := invs + [row];
    forall i | 0 <= i < |invs| ensures v[i] == invs[i] {
    }
  }

  /** The goal and investment tables with their primary-key counters. */
  class Database {
    var goals: seq<GoalRow>
    var investments: seq<InvestmentRow>
    var nextGoalId: int
    var nextInvestmentId: int

    /** Keys are below their counters and distinct, and every investment
        points at an existing goal. */
    ghost predicate Valid()
      reads this
    {
      GoalsValid(goals, nextGoalId) && InvestmentsValid(investments, goals, nextInvestmentId)
    }

    constructor ()
      ensures Valid() && goals == [] && investments == []
    {
      goals, investments := [], [];
      nextGoalId, nextInvestmentId := 1, 1;
    }

    /** `perform_create` of the goal viewset: the row is saved with the
        requester as owner, whatever the payload claims. */
    method PerformCreateGoal(requester: UserId, payload: GoalPayload) returns (row: GoalRow)
      requires Valid()
      modifies this
      ensures Valid()
      ensures row == GoalRow(old(nextGoalId), requester, payload.fields)
      ensures goals == old(goals) + [row]
      ensures investments == old(investments) && nextInvestmentId == old(nextInvestmentId)
    {
      row := GoalRow(nextGoalId, requester, payload.fields);
      OwnerOfAppend(goals, row);
      GoalAppendValid(goals, investments, nextGoalId, nextInvestmentId, row);
      goals := goals + [row];
      nextGoalId := nextGoalId + 1;
    }

    /** `perform_create` of the investment viewset: the goal is looked up by
        the request's `goal` key and the requester; a goal that is missing or
        owned by someone else raises and nothing is saved. */
    method PerformCreateInvestment(requester: UserId, goalId: Option<int>, fields: InvestmentFields)
      returns (r: Result<InvestmentRow, ViewError>)
      requires Valid()
      modifies this
      ensures Valid()
      ensures FindOwnedGoal(old(goals), goalId, requester).None? ==>
                r == Err(DoesNotExist) && investments == old(investments)
      ensures FindOwnedGoal(old(goals), goalId, requester).Some? ==>
                && r == Ok(InvestmentRow(old(nextInvestmentId), goalId.value, fields))
                && investments == old(investments) + [r.value]
                && OwnerOf(goals, r.value.goal) == Some(requester)
      ensures goals == old(goals) && nextGoalId == old(nextGoalId)
    {
      var found := FindOwnedGoal(goals, goalId, requester);
      if found.None? {
        return Err(DoesNotExist);
      }
      var row := InvestmentRow(nextInvestmentId, found.value.id, fields);
      OwnerOfUnique(goals, found.value);
      InvestmentAppendValid(investments, goals, nextInvestmentId, row);
      investments := investments + [row];
      nextInvestmentId := nextInvestmentId + 1;
      r := Ok(row);
    }
  }

  /** Appending a goal with a fresh key keeps every existing owner lookup. */
  lemma {:induction false} OwnerOfAppend(goals: seq<GoalRow>, row: GoalRow)
    requires forall g :: g in goals ==> g.id != row.id
    ensures forall id :: id != row.id ==> OwnerOf(goals + [row], id) == OwnerOf(goals, id)
    ensures OwnerOf(goals + [row], row.id) == Some(row.user)
  {
    if goals == [] {
      assert goals + [row] == [row];
    } else {
      assert (goals + [row])[1..] == goals[1..] + [row];
      OwnerOfAppend(goals[1..], row);
    }
  }

  /** With distinct keys the owner lookup returns the owner of the row that
      carries the key. */
  lemma {:induction false} OwnerOfUnique(goals: seq<GoalRow>, g: GoalRow)
    requires forall i, j :: 0 <= i < j < |goals| ==> goals[i].id != goals[j].id
    requires g in goals
    ensures OwnerOf(goals, g.id) == Some(g.user)
  {
    if goals[0] != g {
      assert g in goals[1..];
      forall i, j | 0 <= i < j < |goals[1..]| ensures goals[1..][i].id != goals[1..][j].id {
        assert goals[1..][i] == goals[i + 1] && goals[1..][j] == goals[j + 1];
      }
      var k :| 0 <= k < |goals| && goals[k] == g;
      assert goals[0].id != g.id;
      OwnerOfUnique(goals[1..], g);
    }
  }

  // ---------------------------------------------------------------------
  // Login
  // ---------------------------------------------------------------------

  /** What the login serializer validates into: the token pair and three
      identity fields. There is no `is_data_admin` among them. */
  datatype LoginData = LoginData(access: string, refresh: string, userId: nat, username: string, email: string)

  /** How `is_valid()` ends: the data is valid, a field is invalid (missing
      username or password), or the token serializer finds no active account
      for the credentials and raises `AuthenticationFailed`, which escapes
      `is_valid()`. */
  datatype LoginValidation =
    | Validated(data: LoginData)
    | Invalid(errors: map<string, seq<string>>)
    | Rejected(detail: string)

  datatype ResponseBody =
    | TokenPair(data: LoginData)
    | FieldErrors(errors: map<string, seq<string>>)
    | Detail(detail: string)

  datatype Response = Response(status: int, body: ResponseBody)

  /** `LoginAPIView.post`: 200 with the validated data when the serializer
      accepts the credentials, 400 with the field errors when a field is
      invalid; a rejected credential check is turned by the framework's
      exception handler into 401 with a `detail` body. */
  function LoginPost(v: LoginValidation): (r: Response)
    ensures r.status in {200, 400, 401}
    ensures r.status == 200 <==> v.Validated?
    ensures r.status == 400 <==> v.Invalid?
    ensures r.status == 401 <==> v.Rejected?
    ensures r.status == 200 ==> r.body == TokenPair(v.data)
    ensures r.status == 400 ==> r.body == FieldErrors(v.errors)
    ensures r.status == 401 ==> r.body == Detail(v.detail)
  {
    match v
    case Validated(data) => Response(200, TokenPair(data))
    case Invalid(errors) => Response(400, FieldErrors(errors))
    case Rejected(detail) => Response(401, Detail(detail))
  }
}

=== FILE: portfolio.dfy ===
/** The derived figures of an investment and of a goal: the read-only
    properties of `MonthlyInvestment` and `InvestmentGoal` in the backend's
    model layer. `Decimal` values are exact reals here. */
module Portfolio {
  import opened Wrappers

  /** The columns of an `Asset` row that the derived figures read. The schema
      gives `currentPrice` the default 0. */
  datatype Asset = Asset(id: int, currentPrice: real)

  /** A `MonthlyInvestment` row. Its `asset` foreign key may be null. */
  datatype Investment = Investment(asset: Option<Asset>, purchasePrice: real, quantity: real)

  /** The only exception the figures can raise: reading `current_price` off
      a null asset (Python's `AttributeError` on `None`). */
  datatype Raised = NullAsset

  predicate AllPriced(invs: seq<Investment>) {
    forall i :: 0 <= i < |invs| ==> invs[i].asset.Some?
  }

  // ---------------------------------------------------------------------
  // One investment
  // ---------------------------------------------------------------------

  /** `total_cost`: what was paid for the units. It is zero exactly when
      no units were bought or they cost nothing, the case `roi` guards. */
  function TotalCost(inv: Investment): (r: real)
    ensures r == 0.0 <==> inv.quantity == 0.0 || inv.purchasePrice == 0.0
    ensures inv.quantity >= 0.0 && inv.purchasePrice >= 0.0 ==> r >= 0.0
  {
    inv.quantity * inv.purchasePrice
  }

  /** The unit price `current_value` uses: the asset's price when it is
      non-zero (a zero `Decimal` is falsy), the purchase price otherwise. */
  function EffectivePrice(inv: Investment): (r: real)
    requires inv.asset.Some?
    ensures r == inv.asset.value.currentPrice || r == inv.purchasePrice
    ensures inv.asset.value.currentPrice != 0.0 ==> r == inv.asset.value.currentPrice
    ensures r == 0.0 ==> inv.purchasePrice == 0.0
  {
    if inv.asset.value.currentPrice != 0.0 then inv.asset.value.currentPrice else inv.purchasePrice
  }

  /** `current_value`: the units at the effective price, or the raise on a
      null asset. With a zero asset price the value is what was paid. */
  function CurrentValue(inv: Investment): (r: Result<real, Raised>)
    ensures r.Err? <==> inv.asset.None?
    ensures r.Ok? && inv.asset.value.currentPrice != 0.0 ==>
              r.value == inv.quantity * inv.asset.value.currentPrice
    ensures r.Ok? && inv.asset.value.currentPrice == 0.0 ==> r.value == TotalCost(inv)
  {
    match inv.asset
    case None => Err(NullAsset)
    case Some(_) => Ok(inv.quantity * EffectivePrice(inv))
  }

  /** `gain_loss`: current value minus cost, that is, the units times the
      difference between the effective price and the purchase price. */
  function GainLoss(inv: Investment): (r: Result<real, Raised>)
    ensures r.Err? <==> inv.asset.None?
    ensures r.Ok? ==> r.value == inv.quantity * (EffectivePrice(inv) - inv.purchasePrice)
    ensures r.Ok? && inv.asset.value.currentPrice == 0.0 ==> r.value == 0.0
  {
    match CurrentValue(inv)
    case Err(e) => Err(e)
    case Ok(v) => Ok(v - TotalCost(inv))
  }

  /** `roi`: a zero cost short-circuits to 0 before the asset is read, so it
      cannot raise then; otherwise the gain as a percentage of the cost. */
  function Roi(inv: Investment): (r: Result<real, Raised>)
    ensures TotalCost(inv) == 0.0 ==> r == Ok(0.0)
    ensures TotalCost(inv) != 0.0 ==> (r.Err? <==> inv.asset.None?)
    ensures r.Ok? && TotalCost(inv) != 0.0 ==> r.value * TotalCost(inv) == 100.0 * GainLoss(inv).value
  {
    var cost := TotalCost(inv);
    if cost == 0.0 then Ok(0.0)
    else
      match GainLoss(inv)
      case Err(e) => Err(e)
      case Ok(g) =>
        var roi := g / cost * 100.0;
        assert roi * cost == 100.0 * g by {
          assert g / cost * cost == g;
        }
        Ok(roi)
  }

  /** `is_profitable`: the investment is worth at least what was paid. */
  function IsProfitable(inv: Investment): (r: Result<bool, Raised>)
    ensures r.Err? <==> inv.asset.None?
    ensures r.Ok? ==> (r.value <==> CurrentValue(inv).value >= TotalCost(inv))
  {
    match GainLoss(inv)
    case Err(e) => Err(e)
    case Ok(g) => Ok(g >= 0.0)
  }

  /** An asset still at its default price of 0 shows no gain, is profitable
      and has a zero return. */
  lemma ZeroPriceBreaksEven(inv: Investment)
    requires inv.asset.Some? && inv.asset.value.currentPrice == 0.0
    ensures CurrentValue(inv) == Ok(TotalCost(inv))
    ensures GainLoss(inv) == Ok(0.0)
    ensures IsProfitable(inv) == Ok(true)
    ensures Roi(inv) == Ok(0.0)
  {
  }

  /** For a positive cost, the return is non-negative exactly when the
      investment is profitable. */
  lemma RoiSignIsProfitability(inv: Investment)
    requires inv.asset.Some? && TotalCost(inv) > 0.0
    ensures Roi(inv).Ok? && IsProfitable(inv).Ok?
    ensures Roi(inv).value >= 0.0 <==> IsProfitable(inv).value
  {
    var c, g, r := TotalCost(inv), GainLoss(inv).value, Roi(inv).value;
    assert r * c == 100.0 * g;
    assert r == 100.0 * g / c;
  }

  // ---------------------------------------------------------------------
  // One goal: sums over `self.investments.all()`
  // ---------------------------------------------------------------------

  /** `total_invested`: the sum of the costs. `total_cost` is a product of
      two non-null decimals and is never `None`, so the generator's filter
      drops nothing. */
  function TotalInvested(invs: seq<Investment>): (r: real)
    ensures invs == [] ==> r == 0.0
    ensures |invs| == 1 ==> r == TotalCost(invs[0])
  {
    if invs == [] then 0.0 else TotalCost(invs[0]) + TotalInvested(invs[1..])
  }

  /** `current_portfolio_value`: the sum of the current values. Evaluating
      any one of them on a null asset raises, and then the whole sum does. */
  function CurrentPortfolioValue(invs: seq<Investment>): (r: Result<real, Raised>)
    ensures r.Ok? <==> AllPriced(invs)
  {
    if invs == [] then Ok(0.0)
    else
      match CurrentValue(invs[0])
      case Err(e) => Err(e)
      case Ok(v) =>
        match CurrentPortfolioValue(invs[1..])
        case Err(e) => Err(e)
        case Ok(rest) => Ok(v + rest)
  }

  /** `net_gain_loss`: the `None` branch is unreachable because a sum is
      never `None`; the property raises only when the value sum does. */
  function NetGainLoss(invs: seq<Investment>): (r: Result<real, Raised>)
    ensures r.Ok? <==> AllPriced(invs)
    ensures r.Ok? ==> r.value + TotalInvested(invs) == CurrentPortfolioValue(invs).value
  {
    match CurrentPortfolioValue(invs)
    case Err(e) => Err(e)
    case Ok(v) => Ok(v - TotalInvested(invs))
  }

  /** `portfolio_roi`: no figure (`None`) exactly when nothing was invested,
      otherwise the net gain as a percentage of the amount invested. The net
      gain is evaluated first, so a null asset raises even then. */
  function PortfolioRoi(invs: seq<Investment>): (r: Result<Option<real>, Raised>)
    ensures r.Ok? <==> AllPriced(invs)
    ensures r.Ok? ==> (r.value.None? <==> TotalInvested(invs) == 0.0)
    ensures r.Ok? && r.value.Some? ==>
              r.value.value * TotalInvested(invs) == 100.0 * NetGainLoss(invs).value
  {
    match NetGainLoss(invs)
    case Err(e) => Err(e)
    case Ok(n) =>
      var t := TotalInvested(invs);
      if t == 0.0 then Ok(None)
      else
        var roi := n / t * 100.0;
        assert roi * t == 100.0 * n by {
          assert n / t * t == n;
        }
        Ok(Some(roi))
  }

  /** `progress`: 0 unless the target is positive; otherwise the amount
      invested as a percentage of the target, reaching 100 exactly when the
      target is met. */
  function Progress(targetAmount: real, invs: seq<Investment>): (r: real)
    ensures targetAmount <= 0.0 ==> r == 0.0
    ensures targetAmount > 0.0 ==> r * targetAmount == 100.0 * TotalInvested(invs)
    ensures targetAmount > 0.0 ==> (r >= 100.0 <==> TotalInvested(invs) >= targetAmount)
  {
    if targetAmount > 0.0 then
      var t := TotalInvested(invs);
      var p := t / targetAmount * 100.0;
      assert p * targetAmount == 100.0 * t by {
        assert t / targetAmount * targetAmount == t;
      }
      p
    else 0.0
  }

  // ---------------------------------------------------------------------
  // Lemmas about the sums
  // ---------------------------------------------------------------------

  /** The sum of the per-investment gains, for a goal whose assets are all
      set. */
  function SumGainLoss(invs: seq<Investment>): real
    requires AllPriced(invs)
  {
    if invs == [] then 0.0 else GainLoss(invs[0]).value + SumGainLoss(invs[1..])
  }

  /** The goal's net gain is the sum of its investments' gains. */
  lemma {:induction false} NetGainLossIsSumOfGains(invs: seq<Investment>)
    requires AllPriced(invs)
    ensures NetGainLoss(invs) == Ok(SumGainLoss(invs))
  {
    if invs != [] {
      assert AllPriced(invs[1..]) by {
        forall i | 0 <= i < |invs[1..]| ensures invs[1..][i].asset.Some? {
          assert invs[1..][i] == invs[i + 1];
        }
      }
      NetGainLossIsSumOfGains(invs[1..]);
    }
  }

  /** The sums split over a concatenation, so the order in which the
      investments are listed (the model orders them by date) does not
      matter for any goal figure. */
  lemma {:induction false} TotalInvestedAppend(a: seq<Investment>, b: seq<Investment>)
    ensures TotalInvested(a + b) == TotalInvested(a) + TotalInvested(b)
  {
    if a != [] {
      assert (a + b)[1..] == a[1..] + b;
      TotalInvestedAppend(a[1..], b);
    } else {
      assert a + b == b;
    }
  }

  /** Taking the first element off one sequence and the same element off
      another at position `k` keeps equal multisets equal. */
  lemma RemoveMatching(a: seq<Investment>, b: seq<Investment>, k: nat)
    requires a != [] && k < |b| && b[k] == a[0] && multiset(a) == multiset(b)
    ensures multiset(a[1..]) == multiset(b[..k] + b[k + 1..])
  {
    assert a == [a[0]] + a[1..];
    assert multiset(a) == multiset{a[0]} + multiset(a[1..]);
    assert b == b[..k] + [b[k]] + b[k + 1..];
    assert multiset(b) == multiset(b[..k]) + multiset{b[k]} + multiset(b[k + 1..]);
    var rest, others := multiset(a[1..]), multiset(b[..k] + b[k + 1..]);
    assert others == multiset(b[..k]) + multiset(b[k + 1..]);
    forall e ensures rest[e] == others[e] {
      assert multiset(a)[e] == multiset{a[0]}[e] + rest[e];
      assert multiset(b)[e] == multiset(b[..k])[e] + multiset{b[k]}[e] + multiset(b[k + 1..])[e];
    }
    assert rest == others;
  }

  /** The amount invested does not depend on the order in which the
      investments are listed: any permutation gives the same sum. */
  lemma {:induction false} TotalInvestedPermutation(a: seq<Investment>, b: seq<Investment>)
    requires multiset(a) == multiset(b)
    ensures TotalInvested(a) == TotalInvested(b)
  {
    if a == [] {
      assert |b| == |multiset(b)| == 0;
    } else {
      var x := a[0];
      assert x in multiset(b);
      var k :| 0 <= k < |b| && b[k] == x;
      var before, after := b[..k], b[k + 1..];
      RemoveMatching(a, b, k);
      TotalInvestedPermutation(a[1..], before + after);
      assert b == before + ([x] + after);
      TotalInvestedAppend(before, [x] + after);
      TotalInvestedAppend(before, after);
      assert ([x] + after)[1..] == after;
    }
  }

  /** A goal with no investments has invested nothing, is worth nothing,
      has no return figure and no progress. */
  lemma EmptyGoal(targetAmount: real)
    ensures TotalInvested([]) == 0.0
    ensures CurrentPortfolioValue([]) == Ok(0.0)
    ensures NetGainLoss([]) == Ok(0.0)
    ensures PortfolioRoi([]) == Ok(None)
    ensures Progress(targetAmount, []) == 0.0
  {
  }

  /** With non-negative quantities and purchase prices the amount invested,
      and hence the progress, is never negative. */
  lemma {:induction false} TotalInvestedNonNegative(invs: seq<Investment>)
    requires forall i :: 0 <= i < |invs| ==> invs[i].quantity >= 0.0 && invs[i].purchasePrice >= 0.0
    ensures TotalInvested(invs) >= 0.0
  {
    if invs != [] {
      TotalInvestedNonNegative(invs[1..]);
    }
  }
}

=== FILE: price_consumer.dfy ===
/** The backend's price WebSocket consumer: group membership on connect and
    disconnect, the admin-gated price write, the broadcast to the
    `price_updates` group, and the forwarding of group events to a socket.
    The channel layer is a set of (group, channel) pairs plus the sequence of
    group sends; the asset table is a map from primary key to row. Each async
    handler runs as one atomic step. */
module PriceConsumer {
  import opened Wrappers

  const PriceGroup: string := "price_updates"
  /** The `type` an inbound frame must carry to request a price write. */
  const PriceUpdateRequest: string := "price_update"
  /** The `type` of the group event (dispatched to the `price_update` handler). */
  const PriceUpdateEvent: string := "price.update"

  /** The columns of an `Asset` row. `lastUpdated` is refreshed on every save. */
  datatype AssetRow = AssetRow(name: string, ticker: string, assetType: string, currentPrice: real, lastUpdated: int)

  /** The group event. `newPrice` and `timestamp` are sent as text; the
      model keeps the values they spell. */
  datatype Event = Event(eventType: string, assetId: int, newPrice: real, timestamp: int)

  datatype GroupSend = GroupSend(group: string, event: Event)

  /** A decoded inbound frame; a key the client left out is `None`. */
  datatype Message = Message(msgType: Option<string>, assetId: Option<int>, newPrice: Option<real>)

  /** `scope['user']`: absent when no authentication middleware fills the
      scope, an anonymous user (which has no `is_data_admin`), or a user. */
  datatype ScopeUser = NoUserInScope | Anonymous | SignedIn(isDataAdmin: bool)

  /** The Python exceptions `receive` can end with. */
  datatype Failure = JsonDecodeError | KeyError | AttributeError | DoesNotExist | UnboundLocalError

  // ---------------------------------------------------------------------
  // Group membership
  // ---------------------------------------------------------------------

  /** `group_add`: the channel joins the group; no other pair changes. */
  function GroupAdd(members: set<(string, string)>, group: string, channel: string): (r: set<(string, string)>)
    ensures (group, channel) in r
    ensures forall p :: p != (group, channel) ==> (p in r <==> p in members)
  {
    members + {(group, channel)}
  }

  /** `group_discard`: the channel leaves the group; no other pair changes. */
  function GroupDiscard(members: set<(string, string)>, group: string, channel: string): (r: set<(string, string)>)
    ensures (group, channel) !in r
    ensures forall p :: p != (group, channel) ==> (p in r <==> p in members)
  {
    members - {(group, channel)}
  }

  /** Disconnecting undoes connecting: a channel that was not a member
      leaves the membership exactly as it found it. */
  lemma ConnectThenDisconnect(members: set<(string, string)>, channel: string)
    requires (PriceGroup, channel) !in members
    ensures GroupDiscard(GroupAdd(members, PriceGroup, channel), PriceGroup, channel) == members
  {
  }

  // ---------------------------------------------------------------------
  // The price write and the receive handler
  // ---------------------------------------------------------------------

  /** `update_asset_price`: `Asset.objects.get` raises for an unknown key;
      otherwise only that row changes, in its price and its save time. */
  function SetPrice(rows: map<int, AssetRow>, assetId: int, newPrice: real, now: int): (r: Result<map<int, AssetRow>, Failure>)
    ensures r.Err? <==> assetId !in rows
    ensures r.Err? ==> r.error == DoesNotExist
    ensures r.Ok? ==> r.value.Keys == rows.Keys
    ensures r.Ok? ==> r.value[assetId].currentPrice == newPrice && r.value[assetId].lastUpdated == now
    ensures r.Ok? ==> r.value[assetId].(currentPrice := rows[assetId].currentPrice,
                                       lastUpdated := rows[assetId].lastUpdated) == rows[assetId]
    ensures r.Ok? ==> forall k :: k in rows && k != assetId ==> r.value[k] == rows[k]
  {
    if assetId !in rows then Err(DoesNotExist)
    else Ok(rows[assetId := rows[assetId].(currentPrice := newPrice, lastUpdated := now)])
  }

  /** The condition on line `if`: the type test comes first and short-
      circuits; only then is the scope's user read, which raises when the
      scope has no user or the user is anonymous. */
  function Gate(user: ScopeUser, msg: Message): (r: Result<bool, Failure>)
    ensures r == Ok(true) <==> msg.msgType == Some(PriceUpdateRequest) && user == SignedIn(true)
    ensures r.Err? ==> msg.msgType == Some(PriceUpdateRequest) && !user.SignedIn?
    ensures msg.msgType == Some(PriceUpdateRequest) && user == NoUserInScope ==> r == Err(KeyError)
    ensures msg.msgType == Some(PriceUpdateRequest) && user == Anonymous ==> r == Err(AttributeError)
  {
    if msg.msgType != Some(PriceUpdateRequest) then Ok(false)
    else
      match user
      case NoUserInScope => Err(KeyError)
      case Anonymous => Err(AttributeError)
      case SignedIn(isDataAdmin) => Ok(isDataAdmin)
  }

  /** What one `receive` does: the asset rows afterwards, the event sent to
      the group (if any), and the exception it ends with (if any). */
  datatype Outcome = Outcome(rows: map<int, AssetRow>, broadcast: Option<Event>, failure: Option<Failure>)

  /** `receive`: decode, gate, write the price, broadcast. When the gate is
      not taken the debug line after the `if` reads the never-bound local
      `asset` and raises. */
  function ReceiveStep(rows: map<int, AssetRow>, user: ScopeUser, frame: Option<Message>, now: int): (r: Outcome)
    // exactly one of "broadcast" and "raised"
    ensures r.broadcast.Some? <==> r.failure.None?
    // a failed receive writes nothing
    ensures r.failure.Some? ==> r.rows == rows
    // a price is written, and broadcast, exactly when an admin sends a
    // complete price request for an existing asset
    ensures r.broadcast.Some? <==>
              && frame.Some? && Gate(user, frame.value) == Ok(true)
              && frame.value.assetId.Some? && frame.value.newPrice.Some?
              && frame.value.assetId.value in rows
    ensures r.broadcast.Some? ==>
              && r.broadcast.value == Event(PriceUpdateEvent, frame.value.assetId.value, frame.value.newPrice.value, now)
              && r.rows == SetPrice(rows, frame.value.assetId.value, frame.value.newPrice.value, now).value
    // which exception each failure raises
    ensures frame.None? ==> r.failure == Some(JsonDecodeError)
    ensures frame.Some? && Gate(user, frame.value).Err? ==> r.failure == Some(Gate(user, frame.value).error)
    // a frame that is not a price request from an admin always raises
    ensures frame.Some? && Gate(user, frame.value) == Ok(false) ==> r.failure == Some(UnboundLocalError)
    ensures (&& frame.Some? && Gate(user, frame.value) == Ok(true)
             && (frame.value.assetId.None? || frame.value.newPrice.None?))
            ==> r.failure == Some(KeyError)
    ensures (&& frame.Some? && Gate(user, frame.value) == Ok(true)
             && frame.value.assetId.Some? && frame.value.newPrice.Some?
             && frame.value.assetId.value !in rows)
            ==> r.failure == Some(DoesNotExist)
  {
    match frame
    case None => Outcome(rows, None, Some(JsonDecodeError))
    case Some(msg) =>
      match Gate(user, msg)
      case Err(e) => Outcome(rows, None, Some(e))
      case Ok(taken) =>
        if !taken then Outcome(rows, None, Some(UnboundLocalError))
        else if msg.assetId.None? || msg.newPrice.None? then Outcome(rows, None, Some(KeyError))
        else
          match SetPrice(rows, msg.assetId.value, msg.newPrice.value, now)
          case Err(e) => Outcome(rows, None, Some(e))
          case Ok(updated) =>
            Outcome(updated, Some(Event(PriceUpdateEvent, msg.assetId.value, msg.newPrice.value, now)), None)
  }

  /** With the scope the backend's routing builds (no authentication
      middleware, so no user), a price request never writes and never
      broadcasts. */
  lemma NoUserNoWrite(rows: map<int, AssetRow>, msg: Message, now: int)
    requires msg.msgType == Some(PriceUpdateRequest)
    ensures ReceiveStep(rows, NoUserInScope, Some(msg), now) == Outcome(rows, None, Some(KeyError))
  {
  }

  /** Replaying an accepted price request, at the same time or later, has
      the effect of that one delivery alone at the replay's time: the same
      price, only the save time and the event's timestamp move on. */
  lemma ReceiveIsIdempotent(rows: map<int, AssetRow>, user: ScopeUser, msg: Message, first: int, replay: int)
    requires ReceiveStep(rows, user, Some(msg), first).broadcast.Some?
    ensures ReceiveStep(ReceiveStep(rows, user, Some(msg), first).rows, user, Some(msg), replay)
            == ReceiveStep(rows, user, Some(msg), replay)
  {
    var once := ReceiveStep(rows, user, Some(msg), first);
    var id, p := msg.assetId.value, msg.newPrice.value;
    assert once.rows.Keys == rows.Keys;
    assert once.rows[id := once.rows[id].(currentPrice := p, lastUpdated := replay)]
        == rows[id := rows[id].(currentPrice := p, lastUpdated := replay)];
  }

  // ---------------------------------------------------------------------
  // The shared state and the consumer
  // ---------------------------------------------------------------------

  /** The channel layer: group membership and every message sent to a group. */
  class ChannelLayer {
    var members: set<(string, string)>
    var sent: seq<GroupSend>

    constructor ()
      ensures members == {} && sent == []
    {
      members, sent := {}, [];
    }
  }

  /** The asset table. */
  class AssetTable {
    var rows: map<int, AssetRow>

    constructor (rows: map<int, AssetRow>)
      ensures this.rows == rows
    {
      this.rows := rows;
    }
  }

  /** One `PriceUpdatesConsumer`: one socket, its channel name and scope. */
  class PriceUpdatesConsumer {
    const channelName: string
    const user: ScopeUser
    const layer: ChannelLayer
    const assets: AssetTable
    var accepted: bool
    /** The frames this socket has sent to its client, as the events they encode. */
    var frames: seq<Event>

    constructor (channelName: string, user: ScopeUser, layer: ChannelLayer, assets: AssetTable)
      ensures this.channelName == channelName && this.user == user
      ensures this.layer == layer && this.assets == assets
      ensures !accepted && frames == []
    {
      this.channelName, this.user := channelName, user;
      this.layer, this.assets := layer, assets;
      accepted, frames := false, [];
    }

    /** `connect`: accept the socket and join the price group. */
    method Connect()
      modifies this, layer
      ensures accepted && frames == old(frames)
      ensures layer.members == GroupAdd(old(layer.members), PriceGroup, channelName)
      ensures layer.sent == old(layer.sent)
    {
      accepted := true;
      layer.members := GroupAdd(layer.members, PriceGroup, channelName);
    }

    /** `disconnect`: leave the price group. */
    method Disconnect(closeCode: int)
      modifies layer
      ensures layer.members == GroupDiscard(old(layer.members), PriceGroup, channelName)
      ensures layer.sent == old(layer.sent)
    {
      layer.members := GroupDiscard(layer.members, PriceGroup, channelName);
    }

    /** `update_asset_price`: fetch, assign, save, return the row. */
    method UpdateAssetPrice(assetId: int, newPrice: real, now: int) returns (r: Result<AssetRow, Failure>)
      modifies assets
      ensures SetPrice(old(assets.rows), assetId, newPrice, now).Err? ==>
                r == Err(DoesNotExist) && assets.rows == old(assets.rows)
      ensures SetPrice(old(assets.rows), assetId, newPrice, now).Ok? ==>
                && assets.rows == SetPrice(old(assets.rows), assetId, newPrice, now).value
                && r == Ok(assets.rows[assetId])
    {
      if assetId !in assets.rows {
        return Err(DoesNotExist);
      }
      var row := assets.rows[assetId].(currentPrice := newPrice);
      row := row.(lastUpdated := now);
      assets.rows := assets.rows[assetId := row];
      r := Ok(row);
    }

    /** `receive`: the price is written and the event sent to the group
        exactly as `ReceiveStep` says; membership never changes. */
    method Receive(frame: Option<Message>, now: int) returns (failure: Option<Failure>)
      modifies layer, assets
      ensures var o := ReceiveStep(old(assets.rows), user, frame, now);
              && assets.rows == o.rows
              && failure == o.failure
              && layer.sent == old(layer.sent) + (if o.broadcast.Some? then [GroupSend(PriceGroup, o.broadcast.value)] else [])
      ensures layer.members == old(layer.members)
    {
      if frame.None? {
        return Some(JsonDecodeError);
      }
      var msg := frame.value;
      var gate := Gate(user, msg);
      if gate.Err? {
        return Some(gate.error);
      }
      if !gate.value {
        return Some(UnboundLocalError);
      }
      if msg.assetId.None? || msg.newPrice.None? {
        return Some(KeyError);
      }
      var updated := UpdateAssetPrice(msg.assetId.value, msg.newPrice.value, now);
      if updated.Err? {
        return Some(updated.error);
      }
      var event := Event(PriceUpdateEvent, msg.assetId.value, updated.value.currentPrice, updated.value.lastUpdated);
      layer.sent := layer.sent + [GroupSend(PriceGroup, event)];
      failure := None;
    }

    /** `price_update`: the group event is sent on this socket unchanged. */
    method PriceUpdate(event: Event)
      modifies this
      ensures frames == old(frames) + [event]
      ensures accepted == old(accepted)
    {
      frames := frames + [event];
    }
  }
}

=== FILE: price_socket.dfy ===
/** The client's price-socket message handler: each pushed event rewrites
    the current value of the matching cached investments and marks the
    aggregate statistics stale. */
module PriceSocket {
  import opened Wrappers
  import opened QueryCache

  /** A parsed push frame. `assetId` is `None` when the frame has no
      `asset_id`; `newPrice` is the number `parseFloat` reads from the
      price text. */
  datatype PushEvent = PushEvent(assetId: Option<int>, newPrice: real)

  /** What the handler can throw: `JSON.parse` on a malformed frame, or
      reading `.id` off a missing `asset`. */
  datatype Thrown = SyntaxError | TypeError

  /** `inv.asset.id === data.asset_id`. A bare key has no `id` member, so
      its side is `undefined`, and so is a missing event id: a nested asset
      matches an event with its id, and a bare key matches exactly the
      events that carry no id (`undefined === undefined`). A missing
      `asset` throws before the comparison and is handled by the caller. */
  predicate Matches(inv: CachedInvestment, assetId: Option<int>)
    ensures assetId.Some? ==> (Matches(inv, assetId) <==> inv.asset == AssetObject(assetId.value))
    ensures assetId.None? ==> (Matches(inv, assetId) <==> inv.asset.AssetPk?)
  {
    || (inv.asset.AssetObject? && assetId == Some(inv.asset.id))
    || (inv.asset.AssetPk? && assetId.None?)
  }

  /** The updater's callback on one element: a matching element gets
      `current_value = quantity × new price` and keeps every other field
      (the spread); any other element is returned as it is. */
  function PatchOne(inv: CachedInvestment, ev: PushEvent): (r: CachedInvestment)
    ensures r.asset == inv.asset && r.quantity == inv.quantity
    ensures Matches(inv, ev.assetId) ==> r.currentValue == inv.quantity * ev.newPrice
    ensures Matches(inv, ev.assetId) ==> r.(currentValue := inv.currentValue) == inv
    ensures !Matches(inv, ev.assetId) ==> r == inv
  {
    if Matches(inv, ev.assetId) then inv.(currentValue := inv.quantity * ev.newPrice) else inv
  }

  /** The updater passed for `['investments']`, applied to a present list:
      the callback mapped over every element, in order. An element without
      `asset` throws, and then no list is produced. */
  function PatchInvestments(items: seq<CachedInvestment>, ev: PushEvent): (r: Result<seq<CachedInvestment>, Thrown>)
    ensures r.Err? <==> exists i :: 0 <= i < |items| && items[i].asset.NoAsset?
    ensures r.Err? ==> r.error == TypeError
    ensures r.Ok? ==> |r.value| == |items|
    ensures r.Ok? ==> forall i :: 0 <= i < |items| ==> r.value[i] == PatchOne(items[i], ev)
  {
    if items == [] then Ok([])
    else
      var inv := items[0];
      if inv.asset.NoAsset? then Err(TypeError)
      else
        match PatchInvestments(items[1..], ev)
        case Err(e) =>
          assert items[1..][0] == items[1];
          Err(e)
        case Ok(rest) =>
          var r := [PatchOne(inv, ev)] + rest;
          assert forall i :: 1 <= i < |items| ==> r[i] == rest[i - 1] && items[i] == items[1..][i - 1];
          Ok(r)
  }

  /** The state after one message and the exception it ends with, if any. */
  datatype Handled = Handled(entries: Entries, thrown: Option<Thrown>)

  /** `socket.onmessage`: parse, patch `['investments']` if it is cached,
      then invalidate `['overall-goal-stats']`. A throw at any step leaves
      the cache as it was, since the patch is written only once computed
      and the invalidation comes last. */
  function HandleMessage(m: Entries, frame: Option<PushEvent>): (r: Handled)
    requires WellTyped(m)
    ensures WellTyped(r.entries)
    ensures r.thrown.Some? ==> r.entries == m
    ensures frame.None? ==> r.thrown == Some(SyntaxError)
    // a parsed frame is handled unless the cached list has an element
    // without `asset`, and then the throw is the `TypeError` of `.id`
    ensures r.thrown.None? <==>
              && frame.Some?
              && (InvestmentsKey in m ==>
                    forall i :: 0 <= i < |m[InvestmentsKey].data.items| ==> !m[InvestmentsKey].data.items[i].asset.NoAsset?)
    ensures frame.Some? && r.thrown.Some? ==> r.thrown == Some(TypeError)
    ensures r.entries.Keys == m.Keys
    // every handled message marks the aggregate stale
    ensures r.thrown.None? && OverallGoalStatsKey in m ==> r.entries[OverallGoalStatsKey] == Entry(m[OverallGoalStatsKey].data, true)
    // no other key is touched
    ensures forall k :: k in m && k != InvestmentsKey && k != OverallGoalStatsKey ==> r.entries[k] == m[k]
    // the list keeps its length, and its elements change only where matched
    ensures r.thrown.None? && InvestmentsKey in m ==>
              var before, after := m[InvestmentsKey].data.items, r.entries[InvestmentsKey].data.items;
              && r.entries[InvestmentsKey].data.InvestmentList?
              && !r.entries[InvestmentsKey].stale
              && |after| == |before|
              && forall i :: 0 <= i < |before| ==> after[i] == PatchOne(before[i], frame.value)
  {
    match frame
    case None => Handled(m, Some(SyntaxError))
    case Some(ev) =>
      if InvestmentsKey !in m then Handled(Invalidate(m, OverallGoalStatsKey), None)
      else
        match PatchInvestments(m[InvestmentsKey].data.items, ev)
        case Err(e) => Handled(m, Some(e))
        case Ok(items) =>
          Handled(Invalidate(SetData(m, InvestmentsKey, InvestmentList(items)), OverallGoalStatsKey), None)
  }

  /** Recomputing from quantity and price cannot compound: patching twice
      with the same event is patching once. */
  lemma PatchIdempotent(items: seq<CachedInvestment>, ev: PushEvent)
    requires PatchInvestments(items, ev).Ok?
    ensures PatchInvestments(PatchInvestments(items, ev).value, ev) == PatchInvestments(items, ev)
  {
    var once := PatchInvestments(items, ev).value;
    var twice := PatchInvestments(once, ev);
    assert twice.Ok?;
    forall i | 0 <= i < |once| ensures twice.value[i] == once[i] {
      assert PatchOne(PatchOne(items[i], ev), ev) == PatchOne(items[i], ev);
    }
  }

  /** Delivering the same event twice leaves the cache as one delivery did. */
  lemma HandleIdempotent(m: Entries, ev: PushEvent)
    requires WellTyped(m)
    requires HandleMessage(m, Some(ev)).thrown.None?
    ensures HandleMessage(HandleMessage(m, Some(ev)).entries, Some(ev)) == HandleMessage(m, Some(ev))
  {
    if InvestmentsKey in m {
      PatchIdempotent(m[InvestmentsKey].data.items, ev);
    }
  }

  /** Events for two different assets touch disjoint elements, so their
      order of arrival does not matter. */
  lemma PatchesCommute(items: seq<CachedInvestment>, e1: PushEvent, e2: PushEvent)
    requires e1.assetId.Some? && e2.assetId.Some? && e1.assetId != e2.assetId
    requires PatchInvestments(items, e1).Ok?
    ensures PatchInvestments(PatchInvestments(items, e1).value, e2).Ok?
    ensures PatchInvestments(items, e2).Ok?
    ensures PatchInvestments(PatchInvestments(items, e1).value, e2)
         == PatchInvestments(PatchInvestments(items, e2).value, e1)
  {
    var a := PatchInvestments(items, e1).value;
    var b := PatchInvestments(items, e2).value;
    var ab := PatchInvestments(a, e2).value;
    var ba := PatchInvestments(b, e1).value;
    forall i | 0 <= i < |items| ensures ab[i] == ba[i] {
      var x := items[i];
      assert ab[i] == PatchOne(PatchOne(x, e1), e2);
      assert ba[i] == PatchOne(PatchOne(x, e2), e1);
    }
  }

  /** A cached list holding one element without `asset` (the shape the
      backend's investment serializer produces, which lists no `asset`
      field) makes every event throw before the aggregate is invalidated. */
  lemma MissingAssetBlocksHandler(m: Entries, ev: PushEvent, i: int)
    requires WellTyped(m) && InvestmentsKey in m
    requires 0 <= i < |m[InvestmentsKey].data.items| && m[InvestmentsKey].data.items[i].asset.NoAsset?
    ensures HandleMessage(m, Some(ev)) == Handled(m, Some(TypeError))
  {
  }

  /** The handler installed on the socket. */
  method OnMessage(client: QueryClient, frame: Option<PushEvent>) returns (thrown: Option<Thrown>)
    requires client.Valid()
    modifies client
    ensures client.Valid()
    ensures client.entries == HandleMessage(old(client.entries), frame).entries
    ensures thrown == HandleMessage(old(client.entries), frame).thrown
  {
    if frame.None? {
      return Some(SyntaxError);
    }
    var ev := frame.value;
    var cached := client.GetQueryData(InvestmentsKey);
    if cached.Some? {
      var patched := PatchInvestments(cached.value.items, ev);
      if patched.Err? {
        return Some(patched.error);
      }
      client.SetQueryData(InvestmentsKey, InvestmentList(patched.value));
    }
    client.InvalidateQueries(OverallGoalStatsKey);
    thrown := None;
  }
}

=== FILE: query_cache.dfy ===
/** The client's shared query cache (one `QueryClient`): entries keyed by
    query key, each holding the last data written and its invalidation flag
    (`stale` here is TanStack's `isInvalidated`; time-based staleness is not
    modelled). Only the two operations the core uses are modelled: writing
    data, which clears the flag, and invalidating a key, which sets it on an
    existing entry (the refetch that follows is not modelled). */
module QueryCache {
  import opened Wrappers

  datatype QueryKey = InvestmentsKey | OverallGoalStatsKey | AssetsKey | OtherKey(name: string)

  /** The `asset` member of a cached investment as the client receives it:
      missing, a bare primary key, or a nested object with an `id`. */
  datatype AssetField = NoAsset | AssetPk(pk: int) | AssetObject(id: int)

  /** An element of the cached `['investments']` list. */
  datatype CachedInvestment = CachedInvestment(
    id: int, goal: int, asset: AssetField, quantity: real, purchasePrice: real,
    currentValue: real, notes: string)

  /** An element of the cached `['assets']` page; the price is the text the
      API returned. */
  datatype CachedAsset = CachedAsset(
    id: int, name: string, ticker: string, assetType: string,
    currentPrice: string, lastUpdated: Option<string>)

  datatype AssetListResponse = AssetListResponse(results: seq<CachedAsset>, count: Option<int>)

  /** What a key holds: the investment list, the asset page, or data of
      another query that this model never looks into. */
  datatype Payload = InvestmentList(items: seq<CachedInvestment>) | AssetPage(page: AssetListResponse) | OtherData(tag: int)

  datatype Entry = Entry(data: Payload, stale: bool)

  type Entries = map<QueryKey, Entry>

  /** Each query stores the shape its fetch function returns. */
  predicate Fits(k: QueryKey, data: Payload) {
    && (k == InvestmentsKey ==> data.InvestmentList?)
    && (k == AssetsKey ==> data.AssetPage?)
  }

  predicate WellTyped(m: Entries) {
    forall k :: k in m ==> Fits(k, m[k].data)
  }

  /** `setQueryData(k, data)`: the key now holds `data`, not invalidated; every
      other key is as it was. */
  function SetData(m: Entries, k: QueryKey, data: Payload): (r: Entries)
    ensures r.Keys == m.Keys + {k}
    ensures r[k] == Entry(data, false)
    ensures forall k' :: k' in m && k' != k ==> r[k'] == m[k']
  {
    m[k := Entry(data, false)]
  }

  /** `invalidateQueries({queryKey: k})`: an existing entry keeps its data
      and becomes stale; nothing is created and no other key changes. */
  function Invalidate(m: Entries, k: QueryKey): (r: Entries)
    ensures r.Keys == m.Keys
    ensures k in m ==> r[k] == Entry(m[k].data, true)
    ensures forall k' :: k' in m && k' != k ==> r[k'] == m[k']
  {
    if k in m then m[k := m[k].(stale := true)] else m
  }

  /** Invalidating twice is invalidating once. */
  lemma InvalidateIdempotent(m: Entries, k: QueryKey)
    ensures Invalidate(Invalidate(m, k), k) == Invalidate(m, k)
  {
  }

  /** The cache object shared by every component. */
  class QueryClient {
    var entries: Entries

    ghost predicate Valid()
      reads this
    {
      WellTyped(entries)
    }

    constructor ()
      ensures Valid() && entries == map[]
    {
      entries := map[];
    }

    /** `getQueryData(k)`: the data held under `k`, if any. */
    function GetQueryData(k: QueryKey): (r: Option<Payload>)
      reads this
      ensures r.Some? <==> k in entries
      ensures r.Some? ==> r.value == entries[k].data
    {
      if k in entries then Some(entries[k].data) else None
    }

    method SetQueryData(k: QueryKey, data: Payload)
      requires Valid() && Fits(k, data)
      modifies this
      ensures Valid()
      ensures entries == SetData(old(entries), k, data)
    {
      entries := SetData(entries, k, data);
    }

    method InvalidateQueries(k: QueryKey)
      requires Valid()
      modifies this
      ensures Valid()
      ensures entries == Invalidate(old(entries), k)
    {
      entries := Invalidate(entries, k);
    }
  }
}

=== FILE: use_auth.dfy ===
/** The `useAuth` hook: its mount effect and its `logout`. */
module UseAuth {
  import opened Wrappers
  import opened Browser

  /** The mount effect: with no truthy access token, go to the login page and
      leave the default header alone; otherwise install the stored token as
      the client's default header, with no expiry check, and stay. */
  method MountEffect(w: Window)
    modifies w
    ensures w.storage == old(w.storage)
    ensures !HasToken(old(w.storage)) ==>
              w.location == "/login" && w.defaultAuthorization == old(w.defaultAuthorization)
    ensures HasToken(old(w.storage)) ==>
              && w.location == old(w.location)
              && w.defaultAuthorization == Some(Bearer(old(w.storage)[AccessTokenKey]))
  {
    var token := GetItem(w.storage, AccessTokenKey);
    if token.None? || token.value == "" {
      w.location := "/login";
    } else {
      w.defaultAuthorization := Some(Bearer(token.value));
    }
  }

  /** `logout`: remove the two tokens, then navigate to the login page. */
  method Logout(w: Window)
    modifies w
    ensures w.storage == RemoveTokens(old(w.storage))
    ensures w.location == "/login"
    ensures w.defaultAuthorization == old(w.defaultAuthorization)
  {
    w.storage := w.storage - {AccessTokenKey};
    w.storage := w.storage - {RefreshTokenKey};
    w.location := "/login";
  }
}

=== FILE: wrappers.dfy ===
/** Option and Result, the two failure-carrying shapes the model uses for
    JavaScript's `undefined` / Python's `None` and for raised exceptions. */
module Wrappers {

  datatype Option<+T> = None | Some(value: T)

  /** `Ok` carries a computed value; `Err` stands for an exception that the
      source raises (Python) or throws (JavaScript) instead of returning. */
  datatype Result<+T, +E> = Ok(value: T) | Err(error: E)
}
